=== FILE: README.md ===
# komps.ai valuation graph, modelled in Dafny

This project models the orchestration core of the komps.ai real-estate
valuation agent. The core is a graph of six steps run on one shared state:

- **planner** picks the next action. It picks GET_COMPS while no comparable
  sales have been accepted and FINALIZE once some have.
- **run_tool** fetches comparable sales from the tools client, or stores a
  stub result for the other lookups.
- **verify** normalises the provider's raw comparables. It keeps those with
  a positive price and living area, resolves a display address for each, and
  emits one `"comps"` claim whose confidence depends on how many survive.
- **update_state** merges the claims that pass a confidence gate into the
  verified state, then clears the per-action keys.
- **valuate** computes the median-price estimate, a confidence flag, and up
  to five "drivers". The drivers are the comparables closest to the median
  living area, taken from a stable sort.
- **report** assembles the subject, the valuation, the drivers and the
  distinct data sources, then marks the run done.

The graph wires these steps as planner → run_tool → verify → update_state.
After update_state a route goes to the end when a human gate is set, to
valuate → report → end when the action is FINALIZE, and back to run_tool
otherwise.

Modules:

- `Raw` (raw.dfy): the provider's loose JSON. A value records only what the
  steps ask of it: its Python truthiness, what `float()` makes of it, and the
  string itself when it is one.
- `Filter` (filter.dfy): the positions a filtering list comprehension keeps.
- `Types` (types.dfy): the request, actions, claims, tool results and
  valuation records. `VerifiedState` and `GraphState` are classes, because
  the steps reassign their fields in place.
- `Planning` (planning.dfy): the planner's decision and run_tool's dispatch.
- `Normalize` (normalize.dfy): verify's normalising loop and its claim.
- `ClaimMerge` (merge.dfy): update_state's merge.
- `Stats` (stats.dfy): `statistics.median`.
- `ValuationModel` (valuation.dfy): valuate's estimate, confidence flag and
  drivers.
- `Sources` (sources.dfy): report's list of distinct sources.
- `Nodes` (nodes.dfy): the six steps as methods on the shared state, and
  lemmas that follow the verified facts through one fetch pass.
- `Graph` (graph.dfy): the edges, the route and the walk they produce.
- `Run` (run.dfy): the compiled graph driven on one state up to a step limit.

The route is modelled as written: its loop edge leads to run_tool, not back
to the planner. As a result, a fresh run without a human gate repeats
run_tool, verify and update_state with the same GET_COMPS action. It never
reaches valuate or report, whatever the client returns, and stops only at
the step limit. `Graph.FetchRunNeverValuates` and `Run.RunGraph` prove this.
`Graph.FinalizeRun` shows the path to the report, which a state needs
already-accepted comparables to take.

## Model

| member | source | states |
|---|---|---|
| Types.ParseAssetClass | app/orchestration/types.py:7 | exactly "residential", "commercial" and "industrial" are accepted, each as the class whose name it is |
| Types.AssetClassRoundTrip | app/orchestration/types.py:5-8 | an asset class written as its literal parses back to itself |
| Types.ParseActionKind | app/orchestration/types.py:27 | exactly the four kind literals are accepted, each as the kind whose name it is |
| Types.ActionKindRoundTrip | app/orchestration/types.py:26-29 | an action kind written as its literal parses back to itself |
| Types.DefaultAction | app/orchestration/types.py:26-29 | an action built from a kind alone has empty params and no alternates |
| Types.VerifiedState.constructor | app/orchestration/types.py:19-23 | a new verified state has empty parcel, zoning and comps |
| Types.GraphState.constructor | app/main.py:14-16 | a run starts from the state `run_once` builds: only the request key set, every other key of the GraphState in app/orchestration/types.py:37-45 absent |
| Planning.PlanAction | app/orchestration/nodes.py:36-45 | GET_COMPS exactly when no comps are verified and FINALIZE exactly when some are; no alternates; a FINALIZE action, or one planned without a request, has empty params; a GET_COMPS action with a request carries exactly its address, apn and asset class, and the class literal parses back |
| Planning.DispatchTool | app/orchestration/nodes.py:63-80 | nothing is stored exactly when the action is absent or FINALIZE; the provider is "get_comps" exactly for GET_COMPS and "stub" for the other lookups; a stub holds `{}`; a comps result holds the client's reply when it is a map, and `{"comps": []}` when there is no client or the reply is not a map |
| Normalize.JoinEnds | app/orchestration/nodes.py:117 | a join of at least one part starts with the first part and ends with the last |
| Normalize.JoinSnoc | app/orchestration/nodes.py:117 | adding a part at the end adds the separator and that part, so Join is Python's `sep.join` read from either end |
| Normalize.JoinEmptyIff | app/orchestration/nodes.py:117 | joining non-empty strings gives "" exactly when there are none |
| Normalize.TruthyTexts | app/orchestration/nodes.py:121-123 | succeeds exactly when every truthy value is a string; the strings kept are non-empty, and there are none exactly when no value is truthy |
| Normalize.TruthyTextsInOrder | app/orchestration/nodes.py:121-123 | the strings kept are those of the truthy values, in their order: the k-th is the value at the k-th truthy position, positions increase, and a position is kept exactly when its value is truthy |
| Normalize.JoinPresent | app/orchestration/nodes.py:121-123 | the join succeeds exactly when every truthy value is a string, and is "" exactly when no value is truthy |
| Normalize.JoinPresentSnoc | app/orchestration/nodes.py:121-123 | the joined string, value by value: no values give ""; a falsy value adds nothing; a truthy non-string makes it fail; a truthy string is appended, after ", " unless it is the first |
| Normalize.ChipAddress | app/orchestration/nodes.py:111-119 | no chip gives no address; an address comes only from a non-empty location list whose first (and second, when there is one) entry is a map; a truthy non-string value in the first or second entry makes the join raise, so there is no chip address |
| Normalize.ChipAddressOfLines | app/orchestration/nodes.py:113-119 | when the first two entries are maps, there is a chip address exactly when neither holds a truthy non-string; it is then both lines joined by ", " when both are non-empty strings, the one that is non-empty when only one is, and "" when neither is |
| Normalize.FallbackAddress | app/orchestration/nodes.py:110-123 | a missing or falsy address object gives ""; a truthy non-map raises; for a map the join succeeds exactly when each truthy part is a string, and is "" exactly when no part is truthy |
| Normalize.DisplayAddress | app/orchestration/nodes.py:110-123 | when the chip's first two entries are maps holding strings or nothing, at least one a non-empty string, the address is the chip's lines (`ChipLines`); otherwise it is the fallback, which for an address map is the truthy street, city, state and zipcode joined by ", " (None where that join raises) |
| Normalize.ChipAddressCases | app/orchestration/nodes.py:111-121 | a chip gives a non-empty address exactly when its first two entries are maps holding strings or nothing and at least one holds a non-empty string, and that address is its lines; any other chip gives no address or "", so the fallback is used |
| Normalize.LivingAreaField | app/orchestration/nodes.py:106 | the field is truthy exactly when `livingArea` or `livingAreaValue` is; it is `livingArea` when that is truthy and `livingAreaValue` otherwise |
| Normalize.NormalizeComp | app/orchestration/nodes.py:105-147 | a comparable yields a record exactly when price and living area are present and convert to positive numbers; the record is valid, carries the converted price and area (`livingArea`, else `livingAreaValue`) and the resolved address, and copies the comparable's bedrooms, bathrooms, zpid and hdpUrl (as `url`) unchanged |
| Normalize.SurvivesIffPositive | app/orchestration/nodes.py:105-132 | when the empty string never parses, a comparable is kept exactly when its price and living area are positive numbers |
| Normalize.ChipNeverDrops | app/orchestration/nodes.py:110-132 | what the formatted chip holds never decides whether a comparable is kept |
| Normalize.ChipLinesAddress | app/orchestration/nodes.py:110-123 | when the chip's first two entries hold strings or nothing, and at least one a non-empty string, the record's address is the chip's lines as above, not the fallback |
| Normalize.FallbackWhenChipEmpty | app/orchestration/nodes.py:120-123 | when the chip gives no address, the address is the truthy street, city, state and zipcode joined by ", " |
| Normalize.NormalizeAll | app/orchestration/nodes.py:103-147 | the batch is no longer than the input, and every record in it is valid for the provider |
| Normalize.NormalizeAllAppend | app/orchestration/nodes.py:104-147 | normalising a concatenation normalises each part in turn, so input order is kept |
| Normalize.NormalizeAllIsSubsequence | app/orchestration/nodes.py:103-147 | the batch is the kept comparables, normalised, in input order: the k-th record comes from the k-th kept position, positions increase, and a position is kept exactly when its comparable survives |
| Normalize.KeptCount | app/orchestration/nodes.py:103-147 | one record per kept position |
| Normalize.KeptRecords | app/orchestration/nodes.py:135-147 | the k-th record is the normalisation of the k-th kept comparable |
| Normalize.CompsConfidence | app/orchestration/nodes.py:149 | the score lies in [0, 1]; it passes the comps gate (0.2) exactly when at least one record survives, and the record gate (0.5) exactly when three or more do |
| Normalize.CompsConfidenceTable | app/orchestration/nodes.py:149 | 0 records score 0.0, 1 scores 0.2, 2 score 0.4, and three or more score 0.9 |
| Normalize.CompsOf | app/orchestration/nodes.py:100 | the comparables are the payload's `comps` list when it holds one, and none when the key is missing, null or a falsy non-list; read from a readable payload they do not make the loop raise |
| Normalize.ClaimsFor | app/orchestration/nodes.py:91-156 | at most one claim, and one exactly when there are an action and a raw result and the action is GET_COMPS; that claim is the `"comps"` field holding the normalised batch, scored by its size, sourced from the provider |
| Normalize.ClaimRecordsValid | app/orchestration/nodes.py:134-151 | every record of an emitted claim is valid and carries the claim's own source |
| Normalize.NormalizeComps | app/orchestration/nodes.py:103-147 | the loop builds exactly the batch NormalizeAll specifies |
| ClaimMerge.MergeClaim | app/orchestration/nodes.py:168-173 | a claim that fails the gate changes nothing; a claim changes only the field it names; an accepted claim sets its field to its value |
| ClaimMerge.Merge | app/orchestration/nodes.py:166-173 | after the loop each field holds its old value or the value of some accepted claim for it |
| ClaimMerge.LastAccepted | app/orchestration/nodes.py:166-173 | there is no result exactly when no claim for the field passes the gate; otherwise the result is such a claim, and no later claim for the field passes the gate |
| ClaimMerge.MergeLastWins | app/orchestration/nodes.py:166-173 | after the loop each field holds the value of its last accepted claim, or its old value when none is accepted |
| ClaimMerge.MergeRejected | app/orchestration/nodes.py:166-173 | claims that all fail the gate leave the verified state unchanged |
| ClaimMerge.MergeIdempotent | app/orchestration/nodes.py:166-173 | merging the same claims twice is the same as merging them once |
| ClaimMerge.MergeLastClaim | app/orchestration/nodes.py:167-173 | an accepted claim merged last overwrites its field, whatever came before |
| Stats.InsertReal | app/orchestration/nodes.py:194 | insertion adds one entry |
| Stats.InsertRealSorted | app/orchestration/nodes.py:194 | inserting into a sorted list keeps it sorted; the head is the new entry or the old head |
| Stats.InsertRealPermutes | app/orchestration/nodes.py:194 | insertion adds exactly the new entry to the multiset |
| Stats.SortReals | app/orchestration/nodes.py:194 | the result is sorted and is a permutation of the input |
| Stats.SortedRealsUnique | app/orchestration/nodes.py:194 | two sorted lists with the same entries are equal |
| Stats.MedianIsMiddle | app/orchestration/nodes.py:194 | for any sorted arrangement of the values, the median is its middle entry, or the mean of the two middle entries when the count is even |
| Stats.MedianSplitsHalf | app/orchestration/nodes.py:194 | at least half of the values are at most the median, and at least half are at least it |
| Stats.MedianWithinRange | app/orchestration/nodes.py:194 | some value is at most the median, and some value is at least it |
| ValuationModel.Prices | app/orchestration/nodes.py:192 | at most one price per comparable, and none exactly when no comparable has a numeric price |
| ValuationModel.PricesInOrder | app/orchestration/nodes.py:192 | the prices are those of the comparables that have one, in order: the k-th is the price of the k-th such comparable |
| ValuationModel.LivingAreas | app/orchestration/nodes.py:198 | at most one area per comparable, and none exactly when no comparable has a numeric living area |
| ValuationModel.LivingAreasInOrder | app/orchestration/nodes.py:198 | the areas are those of the comparables that have one, in order: the k-th is the area of the k-th such comparable |
| ValuationModel.Estimate | app/orchestration/nodes.py:192-194 | no estimate exactly when no comp has a price; otherwise at least half of the prices are at most the estimate and at least half are at least it |
| ValuationModel.EstimateIsMiddle | app/orchestration/nodes.py:192-194 | for any sorted arrangement of the prices, there is no estimate exactly when it is empty; otherwise the estimate is its middle entry, or the mean of the two middle entries for an even count |
| ValuationModel.Confident | app/orchestration/nodes.py:189-195 | confident exactly when there are at least three prices, and then an estimate exists |
| ValuationModel.ValuationOf | app/orchestration/nodes.py:208-212 | the record holds the estimate, the number of comparables and the method "median_price" |
| ValuationModel.Distance | app/orchestration/nodes.py:203 | the key is non-negative; it is 0 for a missing or zero living area (`or` falls back to the target), and otherwise the absolute difference between the living area and the target |
| ValuationModel.InsertByDistance | app/orchestration/nodes.py:201-204 | insertion adds one entry |
| ValuationModel.InsertByDistanceSorted | app/orchestration/nodes.py:201-204 | inserting into a list sorted by distance keeps it sorted |
| ValuationModel.InsertByDistancePermutes | app/orchestration/nodes.py:201-204 | insertion adds exactly the new entry to the multiset |
| ValuationModel.SortByDistance | app/orchestration/nodes.py:201-204 | the result is sorted by distance and is a permutation of the input |
| ValuationModel.InsertByDistanceStable | app/orchestration/nodes.py:201-204 | an entry goes in front of those at its own distance |
| ValuationModel.SortByDistanceStable | app/orchestration/nodes.py:201-204 | the sort is stable: the entries at any one distance keep their input order |
| ValuationModel.StableSortUnique | app/orchestration/nodes.py:201-204 | two sorted, stable permutations of one list are equal |
| ValuationModel.SortByDistanceIsTheStableSort | app/orchestration/nodes.py:201-204 | any sorted, stable rearrangement of the comparables is the sort's result, so it is the result of Python's `sorted` |
| ValuationModel.Drivers | app/orchestration/nodes.py:197-206 | there are min(5, n) drivers, all drawn from the comparables |
| ValuationModel.DriversWithoutAreas | app/orchestration/nodes.py:205-206 | without living areas, the drivers are the first five comparables |
| ValuationModel.DriversArePrefix | app/orchestration/nodes.py:199-204 | with living areas, the drivers are a prefix of the stable sort around the median living area |
| ValuationModel.DriversInDistanceOrder | app/orchestration/nodes.py:199-204 | the drivers come in order of distance from the median living area |
| ValuationModel.DriversAreClosest | app/orchestration/nodes.py:197-204 | no comparable left out is strictly closer to the median living area than a driver |
| Sources.DistinctSources | app/orchestration/nodes.py:228-232 | no source appears twice, and a source is listed exactly when some driver has it as a non-empty source |
| Sources.DistinctSourcesInFirstOccurrenceOrder | app/orchestration/nodes.py:228-232 | sources are listed in the order of their first occurrence among the drivers |
| Sources.CollectSources | app/orchestration/nodes.py:228-232 | the loop builds exactly the list DistinctSources specifies |
| Nodes.Planner | app/orchestration/nodes.py:26-46 | a verified state exists afterwards (the stored one, or a fresh empty one) with unchanged contents, and the action is the plan for its comps and the request |
| Nodes.RunTool | app/orchestration/nodes.py:48-80 | `raw` becomes the dispatched tool result, or stays as it was when the action is absent or FINALIZE |
| Nodes.Verify | app/orchestration/nodes.py:82-157 | `verified` becomes the claims for the current action and raw result |
| Nodes.UpdateState | app/orchestration/nodes.py:159-178 | the verified state (the stored one, or a fresh one) holds the old facts merged with the pending claims in order; `raw` and `verified` are cleared |
| Nodes.Valuate | app/orchestration/nodes.py:180-215 | the valuation, confidence flag and drivers are those of the current verified comps |
| Nodes.ReportOf | app/orchestration/nodes.py:223-245 | the subject is empty without a request and holds its address, apn and asset class with one; confidence is true exactly when the stored flag is true; the valuation is passed through; the top drivers are the stored drivers (none when absent); the sources are duplicate-free, exactly those drivers' non-empty sources, in first-occurrence order |
| Nodes.Report | app/orchestration/nodes.py:217-246 | the report is the one ReportOf specifies, and `done` is set |
| Nodes.ReadyClientLetsVerifyRun | app/orchestration/nodes.py:68-76 | with a client whose replies are readable, verify runs to completion on whatever run_tool stores |
| Nodes.FinalizePassKeepsFacts | app/orchestration/nodes.py:64-65 | a FINALIZE pass stores no result, emits no claim and leaves the verified state unchanged |
| Nodes.CompsPassOutcome | app/orchestration/nodes.py:99-152 | a GET_COMPS pass replaces the comps with the normalised batch exactly when the batch is non-empty, and changes nothing otherwise |
| Nodes.NoClientPassKeepsFacts | app/orchestration/nodes.py:69-71 | without a tools client a GET_COMPS pass leaves the verified state unchanged |
| Nodes.PassKeepsCompsValid | app/orchestration/nodes.py:168-169 | a fetch pass keeps every verified comp valid, and never empties comps once some were accepted |
| Nodes.PlannerFinalizesAfterComps | app/orchestration/nodes.py:36-45 | once comps are accepted, every later plan is FINALIZE |
| Graph.Route | app/orchestration/graph.py:32-37 | a set gate ends the run; otherwise the route is valuate exactly for a FINALIZE action and run_tool exactly for any other or none; never the planner |
| Graph.Next | app/orchestration/graph.py:26-46 | no edge leads to the planner; the end stays the end; valuate goes to report and report to the end; valuate is reached exactly from update_state with no gate and FINALIZE |
| Graph.EdgesAsWired | app/orchestration/graph.py:26-46 | only update_state's edge depends on the gate and the action |
| Graph.Walk | app/orchestration/graph.py:26-46 | a walk of n steps has n nodes and, when it has any, starts at the node it was started from |
| Graph.WalkVisitsIterates | app/orchestration/graph.py:26-46 | the i-th node of a walk is the node reached from its start after i edges |
| Graph.Iterate | app/orchestration/graph.py:26-46 | once at the end a run stays there, and after at least one step it is never back at the planner |
| Graph.FetchLoopNeverLeaves | app/orchestration/graph.py:27-43 | with no gate and a non-FINALIZE action, the walk from run_tool, verify or update_state stays among those three |
| Graph.FetchRunNeverValuates | app/orchestration/graph.py:26-43 | a GET_COMPS run without a gate visits the planner once, then only run_tool, verify and update_state, however many steps it takes |
| Graph.FinalizeRun | app/orchestration/graph.py:26-46 | with FINALIZE and no gate the run is planner, run_tool, verify, update_state, valuate, report, end |
| Graph.GatedRun | app/orchestration/graph.py:32-43 | with the gate set the run is planner, run_tool, verify, update_state, end, whatever the action |
| Run.FetchStep | app/orchestration/nodes.py:26-178 | runs planner, run_tool, verify or update_state and returns the next node: the facts change only at update_state, to the in-order merge of the pending claims; the planner stores the planned action for the current comps; run_tool stores the tool reply; verify stores the claims for the stored action and reply; update_state pops `raw` and `verified`; no other key changes |
| Run.FinishStep | app/orchestration/nodes.py:180-245 | runs valuate or report and returns the next node: valuate stores the estimate, the confidence flag and the drivers of the current comps; report stores the report built from the request and those three keys and sets `done`; each leaves the other's keys, the facts, `raw` and `verified` as they were |
| Run.Step | app/orchestration/graph.py:26-46 | runs one node and returns the node its edge leads to; the request and the gate are unchanged; only the planner changes the action, and it picks GET_COMPS when no comps are verified; report sets `done` and a report |
| Run.RunGraph | app/orchestration/graph.py:26-48 | the nodes run are the graph's walk from the entry, at most the step limit; the run ends at the end node or at the limit; `done` is set exactly when report ran, and then a report exists; a run that starts with no verified comps and no gate never ends, valuates or reports |

## Left out

- The HTTP servers, the database and the rest of `app/main.py` are outside the core.
- The tools client (app/tools/client.py) is not modelled itself: its `get_comps` ignores its arguments, reads a static JSON sample file and returns `{"comps": []}` when the read fails. The model takes the reply as a parameter (`client`: None when no client is installed, else a map payload or a non-map), and every call in a run (`Run.RunGraph`) returns that same reply. The file read itself, and a file that changes between calls, are left out.
- The LangGraph runtime is not modelled. In the model the nodes update one shared state in place, and `state.pop` removes a key. How the runtime merges a node's returned dict into its channels is left out. The recursion limit is the `limit` parameter of `Run.RunGraph`, and a run cut short reports `finished == false` rather than raising.
- graph.py builds the nodes through a `Nodes` class that nodes.py does not define. The model wires nodes.py's module-level functions, as the node names in graph.py suggest.
- Floating point: prices, areas, medians and distances are exact reals. Rounding is left out, and so are NaN and infinities (for instance, `float("nan")` would pass the `<= 0` test).
- Where verify raises, the model has a precondition (`Normalize.VerifyCanRun`, which requires a readable payload), because the step raises rather than handling those inputs. The raising cases are:
  - a truthy `comps` that is not a list;
  - a formattedChip that is present but not a map;
  - a truthy non-map address object reached by the fallback;
  - a truthy non-string address part reached by the fallback.
- Entries of `comps` that are not maps (`comp.get` raises on them) are not representable: a raw comparable is always a map of the keys verify reads.
- Action params are narrowed to string-valued maps, the only kind the planner writes. `alternates` is never set by any step.
- The `required_failed` key is never read or written by the steps and is left out. No step sets `human_gate`: the model takes it as given.
- Aliasing: update_state stores the claim's list itself as the verified comps. The model stores a value, so later in-place changes to a shared list are not captured (no step makes any).
- The verified comps are modelled as normalised records, whose `price` and `livingArea` are a number or missing. Verify only ever stores numbers there, so valuate's filters see no other case. A missing value is representable, and valuate's filters and sort key handle it. Other values are not representable:
  - a truthy non-numeric `livingArea`, on which valuate's sort key raises;
  - a bool `price`, which valuate counts as numeric.
- Run.RunGraph: states which nodes run and what `done` and `report` become, but not the valuation or report contents. For those, see the contracts of Nodes.Valuate and Nodes.Report, which each step run applies.
- Run.Step: states the control flow only (the next node, what stays unchanged, the planner's action kind, `done` and that a report exists). Each node's effect on the facts, the action, `raw`, `verified`, the valuation and the report is stated by Run.FetchStep and Run.FinishStep, which Step dispatches to, and by the Nodes methods they call. Step's own contract leaves those effects out because adding them makes the proof of Run.RunGraph, which calls Step in its loop, too costly for the verifier.

=== FILE: filter.dfy ===
/**
 * A list comprehension with a condition keeps some entries of a list, in
 * order. `Positions` names which: the indices of the entries the condition
 * keeps, in increasing order.
 */
module Filter {

  predicate Increasing(ix: seq<nat>)
  {
    forall k, l :: 0 <= k < l < |ix| ==> ix[k] < ix[l]
  }

  /** The indices of the entries of `s` that `keep` accepts, in order. */
  function Positions<T>(s: seq<T>, keep: T -> bool): (ix: seq<nat>)
    ensures |ix| <= |s|
    ensures forall k :: 0 <= k < |ix| ==> ix[k] < |s|
  {
    if s == [] then []
    else Positions(s[..|s| - 1], keep) + (if keep(s[|s| - 1]) then [|s| - 1] else [])
  }

  /** Dropping the last entry keeps the positions found so far. */
  lemma PositionsOfInit<T>(s: seq<T>, keep: T -> bool)
    requires s != []
    ensures var init := s[..|s| - 1];
      Positions(s, keep) == Positions(init, keep) + (if keep(s[|s| - 1]) then [|s| - 1] else [])
      && forall i :: 0 <= i < |init| ==> init[i] == s[i]
  {
  }

  /** The positions strictly increase. */
  lemma {:induction false} PositionsIncreasing<T>(s: seq<T>, keep: T -> bool)
    ensures Increasing(Positions(s, keep))
  {
    if s != [] {
      var init := s[..|s| - 1];
      PositionsIncreasing(init, keep);
      var ix0, ix := Positions(init, keep), Positions(s, keep);
      assert forall k :: 0 <= k < |ix0| ==> ix[k] == ix0[k] < |init|;
      forall k, l | 0 <= k < l < |ix|
        ensures ix[k] < ix[l]
      {
        if l < |ix0| {
          assert ix0[k] < ix0[l];
        }
      }
    }
  }

  /** An index is a position exactly when `keep` accepts its entry. */
  lemma {:induction false} PositionsExactly<T>(s: seq<T>, keep: T -> bool)
    ensures forall i :: 0 <= i < |s| ==> (keep(s[i]) <==> i in Positions(s, keep))
  {
    if s != [] {
      var init := s[..|s| - 1];
      assert forall i :: 0 <= i < |init| ==> init[i] == s[i];
      PositionsExactly(init, keep);
    }
  }
}

=== FILE: graph.dfy ===
/**
 * The graph's wiring: the fixed edges, the conditional route after
 * update_state, and the walk they produce. The route reads only the human
 * gate and the action.
 */
module Graph {
  import opened Wrappers
  import opened Raw
  import opened Types

  datatype Node = PlannerNode | RunToolNode | VerifyNode | UpdateStateNode | ValuateNode | ReportNode | EndNode

  /** The entry point. */
  const Entry: Node := PlannerNode

  /** The human gate is set: the key is there and holds a non-empty map. */
  predicate GateSet(humanGate: Option<map<string, RawValue>>)
  {
    humanGate.Some? && |humanGate.value| > 0
  }

  /** The route after update_state. */
  function Route(humanGate: Option<map<string, RawValue>>, action: Option<Action>): (n: Node)
    ensures GateSet(humanGate) ==> n == EndNode
    ensures n == ValuateNode <==> !GateSet(humanGate) && action.Some? && action.value.kind == Finalize
    ensures n == RunToolNode <==> !GateSet(humanGate) && !(action.Some? && action.value.kind == Finalize)
    ensures n != PlannerNode
  {
    if GateSet(humanGate) then EndNode
    else if action.Some? && action.value.kind == Finalize then ValuateNode
    else RunToolNode
  }

  /** The node that runs after `n`; the end maps to itself. */
  function Next(n: Node, humanGate: Option<map<string, RawValue>>, action: Option<Action>): (next: Node)
    ensures next != PlannerNode
    ensures n == EndNode ==> next == EndNode
    ensures n == ValuateNode ==> next == ReportNode
    ensures n == ReportNode ==> next == EndNode
    ensures next == ValuateNode <==>
      n == UpdateStateNode && !GateSet(humanGate) && action.Some? && action.value.kind == Finalize
  {
    match n
    case PlannerNode => RunToolNode
    case RunToolNode => VerifyNode
    case VerifyNode => UpdateStateNode
    case UpdateStateNode => Route(humanGate, action)
    case ValuateNode => ReportNode
    case ReportNode => EndNode
    case EndNode => EndNode
  }

  /** Only update_state's edge depends on the gate and the action. */
  lemma EdgesAsWired(n: Node, humanGate: Option<map<string, RawValue>>, action: Option<Action>)
    ensures n != UpdateStateNode ==> Next(n, humanGate, action) == Next(n, None, None)
  {
  }

  /** The first `steps` nodes visited from `n` while the gate and the action stay as given. */
  function Walk(n: Node, humanGate: Option<map<string, RawValue>>, action: Option<Action>, steps: nat): (w: seq<Node>)
    ensures |w| == steps
    ensures steps > 0 ==> w[0] == n
    decreases steps
  {
    if steps == 0 then [] else [n] + Walk(Next(n, humanGate, action), humanGate, action, steps - 1)
  }

  /** The node reached from `n` after `k` steps. */
  function Iterate(n: Node, humanGate: Option<map<string, RawValue>>, action: Option<Action>, k: nat): (r: Node)
    ensures n == EndNode ==> r == EndNode
    ensures k > 0 ==> r != PlannerNode
    decreases k
  {
    if k == 0 then n else Iterate(Next(n, humanGate, action), humanGate, action, k - 1)
  }

  /** The i-th node of a walk is the node reached after i edges. */
  lemma {:induction false} WalkVisitsIterates(n: Node, humanGate: Option<map<string, RawValue>>, action: Option<Action>, steps: nat)
    ensures forall i :: 0 <= i < steps ==> Walk(n, humanGate, action, steps)[i] == Iterate(n, humanGate, action, i)
    decreases steps
  {
    if steps > 0 {
      WalkVisitsIterates(Next(n, humanGate, action), humanGate, action, steps - 1);
    }
  }

  /** One more step extends the walk by the node reached so far, and moves on by one edge. */
  lemma {:induction false} WalkExtends(n: Node, humanGate: Option<map<string, RawValue>>, action: Option<Action>, k: nat)
    ensures Walk(n, humanGate, action, k + 1) == Walk(n, humanGate, action, k) + [Iterate(n, humanGate, action, k)]
    ensures Iterate(n, humanGate, action, k + 1) == Next(Iterate(n, humanGate, action, k), humanGate, action)
    decreases k
  {
    if k > 0 {
      WalkExtends(Next(n, humanGate, action), humanGate, action, k - 1);
    }
  }

  /** Without the gate and with any action other than finalize, the walk cycles through run_tool, verify and update_state. */
  lemma {:induction false} FetchLoopNeverLeaves(n: Node, humanGate: Option<map<string, RawValue>>, action: Option<Action>, steps: nat)
    requires n in {RunToolNode, VerifyNode, UpdateStateNode}
    requires !GateSet(humanGate) && !(action.Some? && action.value.kind == Finalize)
    ensures forall i :: 0 <= i < steps ==> Walk(n, humanGate, action, steps)[i] in {RunToolNode, VerifyNode, UpdateStateNode}
    decreases steps
  {
    if steps > 0 {
      FetchLoopNeverLeaves(Next(n, humanGate, action), humanGate, action, steps - 1);
      var w := Walk(n, humanGate, action, steps);
      assert forall i :: 1 <= i < steps ==> w[i] == Walk(Next(n, humanGate, action), humanGate, action, steps - 1)[i - 1];
    }
  }

  /**
   * A run whose planner chose GET_COMPS, with no gate, visits the planner
   * once and then never reaches valuate, report or the end, however many
   * steps it takes.
   */
  lemma FetchRunNeverValuates(humanGate: Option<map<string, RawValue>>, action: Option<Action>, steps: nat)
    requires !GateSet(humanGate) && action.Some? && action.value.kind == GetComps
    ensures var w := Walk(Entry, humanGate, action, steps);
      && (steps > 0 ==> w[0] == PlannerNode)
      && (forall i :: 1 <= i < steps ==> w[i] in {RunToolNode, VerifyNode, UpdateStateNode})
    ensures steps > 0 ==> Iterate(Entry, humanGate, action, steps) in {RunToolNode, VerifyNode, UpdateStateNode}
  {
    if steps > 0 {
      FetchLoopNeverLeaves(RunToolNode, humanGate, action, steps);
      var w := Walk(Entry, humanGate, action, steps + 1);
      assert forall i :: 1 <= i < steps + 1 ==> w[i] == Walk(RunToolNode, humanGate, action, steps)[i - 1];
      WalkExtends(Entry, humanGate, action, steps);
      assert w[steps] == Iterate(Entry, humanGate, action, steps);
      assert forall i :: 0 <= i < steps ==> Walk(Entry, humanGate, action, steps)[i] == w[i];
    }
  }

  /** With the finalize action and no gate, the run goes planner, run_tool, verify, update_state, valuate, report, end. */
  lemma FinalizeRun(humanGate: Option<map<string, RawValue>>, action: Option<Action>)
    requires !GateSet(humanGate) && action.Some? && action.value.kind == Finalize
    ensures Walk(Entry, humanGate, action, 7)
         == [PlannerNode, RunToolNode, VerifyNode, UpdateStateNode, ValuateNode, ReportNode, EndNode]
  {
    assert Walk(ReportNode, humanGate, action, 2) == [ReportNode, EndNode];
    assert Walk(UpdateStateNode, humanGate, action, 4) == [UpdateStateNode, ValuateNode, ReportNode, EndNode];
  }

  /** With the gate set, the run stops after the first update_state, whatever the action. */
  lemma GatedRun(humanGate: Option<map<string, RawValue>>, action: Option<Action>)
    requires GateSet(humanGate)
    ensures Walk(Entry, humanGate, action, 5) == [PlannerNode, RunToolNode, VerifyNode, UpdateStateNode, EndNode]
  {
    assert Walk(UpdateStateNode, humanGate, action, 2) == [UpdateStateNode, EndNode];
  }
}

=== FILE: merge.dfy ===
/**
 * The update_state step's merge: claims overwrite a field of the verified
 * state when their field, value shape and confidence pass the gate.
 */
module ClaimMerge {
  import opened Wrappers
  import opened Raw
  import opened Types

  /** The gate: a list-valued `"comps"` claim at confidence 0.2 or more, a map-valued `"parcel"` or `"zoning"` claim at 0.5 or more. */
  predicate Accepts(c: Claim)
  {
    || (c.field == "comps" && c.value.CompList? && c.confidence >= 0.2)
    || (c.field == "parcel" && c.value.Record? && c.confidence >= 0.5)
    || (c.field == "zoning" && c.value.Record? && c.confidence >= 0.5)
  }

  /** One pass of the merge loop. */
  function MergeClaim(f: VerifiedFacts, c: Claim): (r: VerifiedFacts)
    ensures !Accepts(c) ==> r == f
    ensures c.field != "comps" ==> r.comps == f.comps
    ensures c.field != "parcel" ==> r.parcel == f.parcel
    ensures c.field != "zoning" ==> r.zoning == f.zoning
    ensures Accepts(c) && c.field == "comps" ==> r.comps == c.value.records
    ensures Accepts(c) && c.field == "parcel" ==> r.parcel == c.value.fields
    ensures Accepts(c) && c.field == "zoning" ==> r.zoning == c.value.fields
  {
    if c.field == "comps" && c.value.CompList? && c.confidence >= 0.2 then f.(comps := c.value.records)
    else if c.field == "parcel" && c.value.Record? && c.confidence >= 0.5 then f.(parcel := c.value.fields)
    else if c.field == "zoning" && c.value.Record? && c.confidence >= 0.5 then f.(zoning := c.value.fields)
    else f
  }

  /** The claim passes the gate as the comps and carries `comps`. */
  predicate SetsComps(c: Claim, comps: seq<CompRecord>)
  {
    c.field == "comps" && Accepts(c) && c.value.records == comps
  }

  /** The claim passes the gate for the map-valued `field` and carries `fields`. */
  predicate SetsRecord(c: Claim, field: string, fields: map<string, RawValue>)
  {
    c.field == field && Accepts(c) && c.value.Record? && c.value.fields == fields
  }

  /** The merge loop over a list of claims, in order. */
  function Merge(f: VerifiedFacts, claims: seq<Claim>): (r: VerifiedFacts)
    ensures r.comps == f.comps || exists i :: 0 <= i < |claims| && SetsComps(claims[i], r.comps)
    ensures r.parcel == f.parcel || exists i :: 0 <= i < |claims| && SetsRecord(claims[i], "parcel", r.parcel)
    ensures r.zoning == f.zoning || exists i :: 0 <= i < |claims| && SetsRecord(claims[i], "zoning", r.zoning)
  {
    if claims == [] then f
    else
      var init := claims[..|claims| - 1];
      assert forall i :: 0 <= i < |init| ==> init[i] == claims[i];
      MergeClaim(Merge(f, init), claims[|claims| - 1])
  }

  /** No claim after position `i` sets `field`. */
  predicate NoneAcceptedAfter(field: string, claims: seq<Claim>, i: nat)
  {
    forall j :: i < j < |claims| ==> !(claims[j].field == field && Accepts(claims[j]))
  }

  /** The last claim for `field` that passes the gate, if any. */
  function LastAccepted(field: string, claims: seq<Claim>): (r: Option<Claim>)
    ensures r.None? <==> forall i :: 0 <= i < |claims| ==> !(claims[i].field == field && Accepts(claims[i]))
    ensures r.Some? ==> r.value.field == field && Accepts(r.value)
    ensures r.Some? ==>
      exists i :: 0 <= i < |claims| && claims[i] == r.value && NoneAcceptedAfter(field, claims, i)
  {
    if claims == [] then None
    else
      var last := claims[|claims| - 1];
      var init := claims[..|claims| - 1];
      assert forall i :: 0 <= i < |init| ==> init[i] == claims[i];
      if last.field == field && Accepts(last) then Some(last) else LastAccepted(field, init)
  }

  /** What a field becomes: the value of its last accepted claim, or what it was when no claim for it passes the gate. */
  lemma {:induction false} MergeLastWins(f: VerifiedFacts, claims: seq<Claim>)
    ensures var r := Merge(f, claims);
      && r.comps == (match LastAccepted("comps", claims) case None => f.comps case Some(c) => c.value.records)
      && r.parcel == (match LastAccepted("parcel", claims) case None => f.parcel case Some(c) => c.value.fields)
      && r.zoning == (match LastAccepted("zoning", claims) case None => f.zoning case Some(c) => c.value.fields)
  {
    if claims != [] {
      MergeLastWins(f, claims[..|claims| - 1]);
    }
  }

  /** Claims that all fail the gate leave the verified state as it was. */
  lemma MergeRejected(f: VerifiedFacts, claims: seq<Claim>)
    requires forall i :: 0 <= i < |claims| ==> !Accepts(claims[i])
    ensures Merge(f, claims) == f
  {
    MergeLastWins(f, claims);
  }

  /** Merging the same claims a second time changes nothing. */
  lemma MergeIdempotent(f: VerifiedFacts, claims: seq<Claim>)
    ensures Merge(Merge(f, claims), claims) == Merge(f, claims)
  {
    MergeLastWins(f, claims);
    MergeLastWins(Merge(f, claims), claims);
  }

  /** Merging one claim after others: an accepted claim overwrites its field whatever came before. */
  lemma MergeLastClaim(f: VerifiedFacts, claims: seq<Claim>, c: Claim)
    requires Accepts(c)
    ensures c.field == "comps" ==> Merge(f, claims + [c]).comps == c.value.records
    ensures c.field == "parcel" ==> Merge(f, claims + [c]).parcel == c.value.fields
    ensures c.field == "zoning" ==> Merge(f, claims + [c]).zoning == c.value.fields
  {
    assert (claims + [c])[..|claims + [c]| - 1] == claims;
  }
}

=== FILE: nodes.dfy ===
/**
 * The six steps of the valuation graph. Each step reads the shared
 * `GraphState` and updates some of its keys in place; the values it writes
 * are given by the functions of the Planning, Normalize, Merge,
 * ValuationModel and Sources modules. The lemmas at the end follow the facts
 * through one run_tool, verify, update_state pass.
 */
module Nodes {
  import opened Wrappers
  import opened Raw
  import opened Types
  import opened Planning
  import opened Normalize
  import opened ClaimMerge
  import opened ValuationModel
  import opened Sources

  /** The verified state the valuate step reads: the stored one, or a fresh empty one. */
  function CurrentFacts(vs: VerifiedState?): VerifiedFacts
    reads vs
  {
    if vs == null then EmptyFacts else vs.Facts()
  }

  /** The pending claims: the stored list, or none when the key is missing. */
  function PendingClaims(verified: Option<seq<Claim>>): seq<Claim>
  {
    if verified.Some? then verified.value else []
  }

  /** planner: make sure a verified state exists, then store the planned action. */
  method Planner(state: GraphState)
    modifies state`verifiedState, state`action
    ensures state.verifiedState != null
    ensures old(state.verifiedState) != null ==> state.verifiedState == old(state.verifiedState)
    ensures old(state.verifiedState) == null ==> fresh(state.verifiedState)
    ensures state.verifiedState.Facts() == old(CurrentFacts(state.verifiedState))
    ensures state.action == Some(PlanAction(state.verifiedState.comps, state.request))
  {
    var vs := state.verifiedState;
    if vs == null {
      vs := new VerifiedState();
    }
    state.verifiedState := vs;
    state.action := Some(PlanAction(vs.comps, state.request));
  }

  /** run_tool: store the tool result, unless the action is absent or FINALIZE. */
  method RunTool(state: GraphState, client: Option<ClientReply>)
    modifies state`raw
    ensures var r := DispatchTool(state.action, client);
      state.raw == if r.Some? then r else old(state.raw)
  {
    var action := state.action;
    if action.None? || action.value.kind == Finalize {
      return;
    }
    if action.value.kind == GetComps {
      if client.None? || client.value.ReplyNotMap? {
        state.raw := Some(ToolResult("get_comps", NoCompsPayload));
      } else {
        state.raw := Some(ToolResult("get_comps", client.value.data));
      }
      return;
    }
    state.raw := Some(ToolResult("stub", EmptyPayload));
  }

  /** verify: turn the raw result into claims. */
  method Verify(state: GraphState)
    requires VerifyCanRun(state.action, state.raw)
    modifies state`verified
    ensures state.verified == Some(ClaimsFor(state.action, state.raw))
  {
    var action, raw := state.action, state.raw;
    if action.None? || raw.None? {
      state.verified := Some([]);
      return;
    }
    var claims: seq<Claim> := [];
    if action.value.kind == GetComps {
      var normalized := NormalizeComps(CompsOf(raw.value.data), raw.value.provider);
      var confidence := CompsConfidence(|normalized|);
      claims := [Claim("comps", CompList(normalized), confidence, raw.value.provider)];
    }
    state.verified := Some(claims);
  }

  /** update_state: merge the pending claims into the verified state, then drop `raw` and `verified`. */
  method UpdateState(state: GraphState)
    modifies state`verifiedState, state`raw, state`verified, state.verifiedState
    ensures state.verifiedState != null
    ensures old(state.verifiedState) != null ==> state.verifiedState == old(state.verifiedState)
    ensures old(state.verifiedState) == null ==> fresh(state.verifiedState)
    ensures state.verifiedState.Facts() == Merge(old(CurrentFacts(state.verifiedState)), PendingClaims(old(state.verified)))
    ensures state.raw.None? && state.verified.None?
  {
    var vs := state.verifiedState;
    if vs == null {
      vs := new VerifiedState();
    }
    state.verifiedState := vs;
    var claims := PendingClaims(state.verified);
    ghost var start := vs.Facts();
    for i := 0 to |claims|
      invariant state.verifiedState == vs
      invariant vs.Facts() == Merge(start, claims[..i])
    {
      assert claims[..i + 1][..i] == claims[..i];
      var claim := claims[i];
      assert Merge(start, claims[..i + 1]) == MergeClaim(Merge(start, claims[..i]), claim);
      if claim.field == "comps" && claim.value.CompList? && claim.confidence >= 0.2 {
        vs.comps := claim.value.records;
      } else if claim.field == "parcel" && claim.value.Record? && claim.confidence >= 0.5 {
        vs.parcel := claim.value.fields;
      } else if claim.field == "zoning" && claim.value.Record? && claim.confidence >= 0.5 {
        vs.zoning := claim.value.fields;
      }
    }
    assert claims[..|claims|] == claims;
    state.raw := None;
    state.verified := None;
  }

  /** valuate: the estimate, its confidence and the top drivers of the current comps. */
  method Valuate(state: GraphState)
    modifies state`valuation, state`valuationConfident, state`valuationDrivers
    ensures var comps := CurrentFacts(state.verifiedState).comps;
      && state.valuation == Some(ValuationOf(comps))
      && state.valuationConfident == Some(Confident(comps))
      && state.valuationDrivers == Some(Drivers(comps))
  {
    var comps := CurrentFacts(state.verifiedState).comps;
    state.valuation := Some(ValuationOf(comps));
    state.valuationConfident := Some(Confident(comps));
    state.valuationDrivers := Some(Drivers(comps));
  }

  /** The report built from the request and the valuate step's outputs. */
  function ReportOf(request: Option<RealEstateRequest>, valuation: Option<Valuation>,
                    confident: Option<bool>, drivers: Option<seq<CompRecord>>): (r: ValuationReport)
    ensures request.None? ==> r.subject == Subject(None, None, None)
    ensures request.Some? ==>
      && r.subject.address == Some(request.value.address)
      && r.subject.apn == Some(request.value.apn)
      && r.subject.assetClass == Some(AssetClassName(request.value.assetClass))
    ensures r.confidence <==> confident == Some(true)
    ensures r.valuation == valuation
    ensures r.topDrivers == if drivers.Some? then drivers.value else []
    ensures NoDuplicates(r.sources)
    ensures forall s :: s in r.sources <==> exists i :: 0 <= i < |r.topDrivers| && HasSource(r.topDrivers[i], s)
    ensures InFirstOccurrenceOrder(r.topDrivers, r.sources)
  {
    var ds := if drivers.Some? then drivers.value else [];
    DistinctSourcesInFirstOccurrenceOrder(ds);
    var subject := if request.Some? then
        Subject(Some(request.value.address), Some(request.value.apn), Some(AssetClassName(request.value.assetClass)))
      else Subject(None, None, None);
    ValuationReport(subject, valuation, confident == Some(true), ds, DistinctSources(ds))
  }

  /** report: store the report and mark the run done. */
  method Report(state: GraphState)
    modifies state`report, state`done
    ensures state.report == Some(ReportOf(state.request, state.valuation, state.valuationConfident, state.valuationDrivers))
    ensures state.done == Some(true)
  {
    var request := state.request;
    var drivers := if state.valuationDrivers.Some? then state.valuationDrivers.value else [];
    var sources := CollectSources(drivers);
    var subject := if request.Some? then
        Subject(Some(request.value.address), Some(request.value.apn), Some(AssetClassName(request.value.assetClass)))
      else Subject(None, None, None);
    state.report := Some(ValuationReport(subject, state.valuation, state.valuationConfident == Some(true), drivers, sources));
    state.done := Some(true);
  }

  /** A client whose map replies hold a readable comps list. */
  predicate ClientReady(client: Option<ClientReply>)
  {
    client.Some? && client.value.ReplyMap? ==> PayloadReadable(client.value.data)
  }

  /** With a ready client, verify runs to completion on whatever run_tool stored after update_state cleared `raw`. */
  lemma ReadyClientLetsVerifyRun(action: Option<Action>, client: Option<ClientReply>)
    requires ClientReady(client)
    ensures VerifyCanRun(action, DispatchTool(action, client))
  {
  }

  /** A FINALIZE pass fetches nothing, emits no claim and leaves the verified state as it was. */
  lemma FinalizePassKeepsFacts(f: VerifiedFacts, action: Option<Action>, client: Option<ClientReply>)
    requires action.Some? && action.value.kind == Finalize
    ensures DispatchTool(action, client).None?
    ensures ClaimsFor(action, DispatchTool(action, client)) == []
    ensures Merge(f, ClaimsFor(action, DispatchTool(action, client))) == f
  {
  }

  /** A GET_COMPS pass replaces the comps exactly when at least one comparable survives normalisation. */
  lemma CompsPassOutcome(f: VerifiedFacts, action: Option<Action>, client: Option<ClientReply>)
    requires action.Some? && action.value.kind == GetComps && ClientReady(client)
    ensures var raw := DispatchTool(action, client);
      && VerifyCanRun(action, raw)
      && var n := NormalizeAll(CompsOf(raw.value.data), "get_comps");
         Merge(f, ClaimsFor(action, raw)) == if n == [] then f else f.(comps := n)
  {
    var raw := DispatchTool(action, client);
    var claims := ClaimsFor(action, raw);
    assert claims[..0] == [];
    assert Merge(f, claims) == MergeClaim(f, claims[0]);
  }

  /** Without a tool client a GET_COMPS pass changes nothing: the empty batch scores 0.0 and the gate rejects it. */
  lemma NoClientPassKeepsFacts(f: VerifiedFacts, action: Option<Action>)
    requires action.Some? && action.value.kind == GetComps
    ensures Merge(f, ClaimsFor(action, DispatchTool(action, None))) == f
  {
    CompsPassOutcome(f, action, None);
    assert NormalizeAll([], "get_comps") == [];
  }

  /** Every comp in the verified state is a valid record of its own source. */
  predicate CompsValid(comps: seq<CompRecord>)
  {
    forall k :: 0 <= k < |comps| ==> comps[k].source.Some? && ValidRecord(comps[k], comps[k].source.value)
  }

  /** Merging the claims verify emits keeps the comps valid, and never empties comps once some were accepted. */
  lemma PassKeepsCompsValid(f: VerifiedFacts, action: Option<Action>, raw: Option<ToolResult>)
    requires VerifyCanRun(action, raw) && CompsValid(f.comps)
    ensures CompsValid(Merge(f, ClaimsFor(action, raw)).comps)
    ensures f.comps != [] ==> Merge(f, ClaimsFor(action, raw)).comps != []
  {
    var claims := ClaimsFor(action, raw);
    if claims != [] {
      assert claims[..0] == [];
      assert Merge(f, claims) == MergeClaim(f, claims[0]);
    }
  }

  /** Once comps are accepted, the planner only ever finalizes. */
  lemma PlannerFinalizesAfterComps(f: VerifiedFacts, action: Option<Action>, raw: Option<ToolResult>, request: Option<RealEstateRequest>)
    requires VerifyCanRun(action, raw) && CompsValid(f.comps) && f.comps != []
    ensures PlanAction(Merge(f, ClaimsFor(action, raw)).comps, request).kind == Finalize
  {
    PassKeepsCompsValid(f, action, raw);
  }
}

=== FILE: normalize.dfy ===
/**
 * The verify step: turning one provider payload into at most one scored
 * `"comps"` claim. Each raw comparable is kept or dropped on its own, a display
 * address is resolved for it, and the surviving batch is scored by its size.
 */
module Normalize {
  import opened Wrappers
  import opened Raw
  import opened Types
  import opened Filter

  /** Python's `sep.join(parts)`. */
  function Join(parts: seq<string>, sep: string): string
  {
    if parts == [] then ""
    else if |parts| == 1 then parts[0]
    else parts[0] + sep + Join(parts[1..], sep)
  }

  /** A join starts with the first part and ends with the last. */
  lemma {:induction false} JoinEnds(parts: seq<string>, sep: string)
    requires parts != []
    ensures var r, last := Join(parts, sep), parts[|parts| - 1];
      && |parts[0]| <= |r| && r[..|parts[0]|] == parts[0]
      && |last| <= |r| && r[|r| - |last|..] == last
  {
    if |parts| > 1 {
      JoinEnds(parts[1..], sep);
      var rest := Join(parts[1..], sep);
      assert parts[1..][|parts[1..]| - 1] == parts[|parts| - 1];
      assert (parts[0] + sep + rest)[|parts[0] + sep + rest| - |parts[|parts| - 1]|..] == rest[|rest| - |parts[|parts| - 1]|..];
    }
  }

  /** Adding a part at the end adds the separator and the part. */
  lemma {:induction false} JoinSnoc(parts: seq<string>, p: string, sep: string)
    requires parts != []
    ensures Join(parts + [p], sep) == Join(parts, sep) + sep + p
  {
    if |parts| == 1 {
      assert (parts + [p])[1..] == [p];
    } else {
      assert (parts + [p])[1..] == parts[1..] + [p];
      JoinSnoc(parts[1..], p, sep);
    }
  }

  /** Joining non-empty strings gives the empty string only when there are none. */
  lemma JoinEmptyIff(parts: seq<string>, sep: string)
    requires forall k :: 0 <= k < |parts| ==> parts[k] != ""
    ensures Join(parts, sep) == "" <==> parts == []
  {
    if |parts| > 1 {
      assert Join(parts, sep)[..|parts[0]|] == parts[0];
    }
  }

  /**
   * The truthy values among `values`, in order, as strings; None when one of
   * them is not a string, where `join` raises a TypeError.
   */
  function TruthyTexts(values: seq<Option<RawValue>>): (r: Option<seq<string>>)
    ensures r.Some? <==> forall i :: 0 <= i < |values| && Present(values[i]) ==> values[i].value.Text?
    ensures r.Some? ==> forall k :: 0 <= k < |r.value| ==> r.value[k] != ""
    ensures r.Some? ==> (r.value == [] <==> forall i :: 0 <= i < |values| ==> !Present(values[i]))
  {
    if values == [] then Some([])
    else
      var init := values[..|values| - 1];
      var last := values[|values| - 1];
      var rest := TruthyTexts(init);
      assert forall i :: 0 <= i < |init| ==> init[i] == values[i];
      if !Present(last) then rest
      else if !last.value.Text? || rest.None? then None
      else Some(rest.value + [last.value.s])
  }

  /**
   * The strings kept are those of the truthy values, in their order: the
   * k-th string is the value at the k-th position where a value is truthy.
   */
  lemma TruthyTextsInOrder(values: seq<Option<RawValue>>)
    requires TruthyTexts(values).Some?
    ensures var ix, t := Positions(values, Present), TruthyTexts(values).value;
      && |t| == |ix|
      && (forall k :: 0 <= k < |ix| ==> values[ix[k]].Some? && values[ix[k]].value.Text? && t[k] == values[ix[k]].value.s)
      && Increasing(ix)
      && (forall i :: 0 <= i < |values| ==> (Present(values[i]) <==> i in ix))
  {
    TruthyTextsAt(values);
    PositionsIncreasing(values, Present);
    PositionsExactly(values, Present);
  }

  lemma {:induction false} TruthyTextsAt(values: seq<Option<RawValue>>)
    requires TruthyTexts(values).Some?
    ensures var ix, t := Positions(values, Present), TruthyTexts(values).value;
      |t| == |ix| && forall k :: 0 <= k < |ix| ==> values[ix[k]].Some? && values[ix[k]].value.Text? && t[k] == values[ix[k]].value.s
  {
    if values != [] {
      var init := values[..|values| - 1];
      assert forall i :: 0 <= i < |init| ==> init[i] == values[i];
      TruthyTextsAt(init);
    }
  }

  /** The truthy values joined by ", "; None where the join raises (a truthy value that is not a string). */
  function JoinPresent(values: seq<Option<RawValue>>): (r: Option<string>)
    ensures r.Some? <==> forall i :: 0 <= i < |values| && Present(values[i]) ==> values[i].value.Text?
    ensures r.Some? ==> (r.value == "" <==> forall i :: 0 <= i < |values| ==> !Present(values[i]))
  {
    var texts := TruthyTexts(values);
    if texts.None? then None
    else
      JoinEmptyIff(texts.value, ", ");
      Some(Join(texts.value, ", "))
  }

  /**
   * The join read from the left: no values give "", a falsy value adds
   * nothing, and a truthy string is added after ", " unless it is the first.
   */
  lemma JoinPresentSnoc(values: seq<Option<RawValue>>, v: Option<RawValue>)
    ensures JoinPresent([]) == Some("")
    ensures !Present(v) ==> JoinPresent(values + [v]) == JoinPresent(values)
    ensures Present(v) && !v.value.Text? ==> JoinPresent(values + [v]).None?
    ensures Present(v) && v.value.Text? ==>
      JoinPresent(values + [v]) == match JoinPresent(values)
        case None => None
        case Some(prev) => Some(if prev == "" then v.value.s else prev + ", " + v.value.s)
  {
    var all := values + [v];
    assert all[..|all| - 1] == values;
    var texts := TruthyTexts(values);
    if Present(v) && v.value.Text? && texts.Some? && texts.value != [] {
      JoinSnoc(texts.value, v.value.s, ", ");
    }
  }

  /**
   * The address the chip's `try` block builds from the first two location
   * entries. None when the chip is absent, its location is not a non-empty
   * list, or the block raises (an entry that is not a map, a value that is
   * not a string).
   */
  function ChipAddress(chip: ChipField): (r: Option<string>)
    requires !chip.ChipNotMap?
    ensures chip.NoChip? ==> r.None?
    ensures r.Some? ==>
      && chip.location.Some? && chip.location.value.LocationList?
      && var entries := chip.location.value.entries;
         |entries| > 0 && entries[0].EntryMap? && (|entries| > 1 ==> entries[1].EntryMap?)
    ensures chip.ChipMap? && chip.location.Some? && chip.location.value.LocationList? ==>
      var entries := chip.location.value.entries;
      && (|entries| > 0 && entries[0].EntryMap? && Present(entries[0].fullValue) && !entries[0].fullValue.value.Text? ==> r.None?)
      && (|entries| > 1 && entries[1].EntryMap? && Present(entries[1].fullValue) && !entries[1].fullValue.value.Text? ==> r.None?)
  {
    match chip
    case NoChip => None
    case ChipMap(location) =>
      if location.Some? && location.value.LocationList? && |location.value.entries| > 0 then
        var entries := location.value.entries;
        if !entries[0].EntryMap? || (|entries| > 1 && !entries[1].EntryMap?) then None
        else
          var line1 := entries[0].fullValue;
          var line2 := if |entries| > 1 then entries[1].fullValue else Some(Text("", None));
          JoinPresentSnoc([], line1);
          assert [] + [line1] == [line1];
          JoinPresentSnoc([line1], line2);
          assert [line1] + [line2] == [line1, line2];
          JoinPresent([line1, line2])
      else None
  }

  /** A falsy value, or a string: what `join` accepts among the parts it keeps. */
  predicate TextIfPresent(v: Option<RawValue>)
  {
    Present(v) ==> v.value.Text?
  }

  /** The fallback built from the address object's parts; None where it raises (a truthy non-map, a non-string part). */
  function FallbackAddress(address: Option<AddressField>): (r: Option<string>)
    ensures address.None? || address == Some(AddressNotMap(false)) ==> r == Some("")
    ensures address == Some(AddressNotMap(true)) ==> r.None?
    ensures address.Some? && address.value.AddressMap? ==>
      var a := address.value;
      && (r.Some? <==> TextIfPresent(a.streetAddress) && TextIfPresent(a.city) && TextIfPresent(a.state) && TextIfPresent(a.zipcode))
      && (r == Some("") <==> !Present(a.streetAddress) && !Present(a.city) && !Present(a.state) && !Present(a.zipcode))
  {
    match address
    case None => Some("")
    case Some(AddressNotMap(truthy)) => if truthy then None else Some("")
    case Some(AddressMap(street, city, state, zipcode)) =>
      var parts := [street, city, state, zipcode];
      assert parts[0] == street && parts[1] == city && parts[2] == state && parts[3] == zipcode;
      JoinPresent(parts)
  }

  /**
   * The chip's first two location entries are maps holding strings or
   * nothing, and at least one holds a non-empty string: the chip gives the
   * address.
   */
  predicate ChipHasLines(chip: ChipField)
  {
    && chip.ChipMap? && chip.location.Some? && chip.location.value.LocationList?
    && var entries := chip.location.value.entries;
       && |entries| > 0 && entries[0].EntryMap? && TextIfPresent(entries[0].fullValue)
       && (|entries| > 1 ==> entries[1].EntryMap? && TextIfPresent(entries[1].fullValue))
       && (Present(entries[0].fullValue) || (|entries| > 1 && Present(entries[1].fullValue)))
  }

  /** The display address of a raw comparable: the chip's lines when it has some, else the fallback; None where computing it raises. */
  function DisplayAddress(c: RawComp): (r: Option<string>)
    requires !c.formattedChip.ChipNotMap?
    ensures ChipHasLines(c.formattedChip) ==> r == Some(ChipLines(c.formattedChip.location.value.entries))
    ensures !ChipHasLines(c.formattedChip) ==> r == FallbackAddress(c.address)
    ensures !ChipHasLines(c.formattedChip) && c.address.Some? && c.address.value.AddressMap? ==>
      var a := c.address.value;
      r == JoinPresent([a.streetAddress, a.city, a.state, a.zipcode])
  {
    ChipAddressCases(c.formattedChip);
    var chip := ChipAddress(c.formattedChip);
    if chip.Some? && chip.value != "" then chip else FallbackAddress(c.address)
  }

  /** The living area: livingArea, or livingAreaValue when livingArea is missing or falsy. */
  function LivingAreaField(c: RawComp): (r: Option<RawValue>)
    ensures Present(r) <==> Present(c.livingArea) || Present(c.livingAreaValue)
    ensures Present(c.livingArea) ==> r == c.livingArea
    ensures !Present(c.livingArea) ==> r == c.livingAreaValue
  {
    if Present(c.livingArea) then c.livingArea else c.livingAreaValue
  }

  /** The comparable passes the presence check and goes on to the address. */
  predicate Reaches(c: RawComp)
  {
    Present(c.price) && Present(LivingAreaField(c))
  }

  /** The verify step raises on this comparable: its chip is not a map, or the fallback address raises. */
  predicate Raises(c: RawComp)
  {
    Reaches(c) && (c.formattedChip.ChipNotMap? || DisplayAddress(c).None?)
  }

  /** The comparable is kept: price and living area are there and convert to positive numbers. */
  predicate Survives(c: RawComp)
  {
    Reaches(c) && PositiveNumber(c.price) && PositiveNumber(LivingAreaField(c))
  }

  /** A normalised record: positive price and area, the derived price per square foot, and the provider as source. */
  predicate ValidRecord(r: CompRecord, provider: string)
  {
    && r.price.Some? && r.price.value > 0.0
    && r.livingArea.Some? && r.livingArea.value > 0.0
    && r.pricePerSqft == Some(r.price.value / r.livingArea.value)
    && r.source == Some(provider)
  }

  /** One pass of the normalising loop: the record it appends, or None when it skips the comparable. */
  function NormalizeComp(c: RawComp, provider: string): (r: Option<CompRecord>)
    requires !Raises(c)
    ensures r.Some? <==> Survives(c)
    ensures r.Some? ==> ValidRecord(r.value, provider)
    ensures r.Some? ==> r.value.price == AsFloat(c.price.value)
    ensures r.Some? ==> r.value.livingArea == AsFloat((if Present(c.livingArea) then c.livingArea else c.livingAreaValue).value)
    ensures r.Some? ==> r.value.address == DisplayAddress(c).value
    ensures r.Some? ==> r.value.bedrooms == c.bedrooms && r.value.bathrooms == c.bathrooms
    ensures r.Some? ==> r.value.zpid == c.zpid && r.value.url == c.hdpUrl
  {
    if !Reaches(c) then None
    else
      var address := DisplayAddress(c).value;
      var area := AsFloat(LivingAreaField(c).value);
      var price := AsFloat(c.price.value);
      if area.None? || price.None? || area.value <= 0.0 || price.value <= 0.0 then None
      else
        Some(CompRecord(address, Some(price.value), Some(area.value), c.bedrooms, c.bathrooms,
                        c.zpid, c.hdpUrl, Some(price.value / area.value), Some(provider)))
  }

  /** With well-formed numbers, a comparable is kept exactly when price and living area are positive numbers. */
  lemma SurvivesIffPositive(c: RawComp)
    requires ParsesConsistently(c.price) && ParsesConsistently(c.livingArea) && ParsesConsistently(c.livingAreaValue)
    ensures Survives(c) <==> PositiveNumber(c.price) && PositiveNumber(LivingAreaField(c))
  {
  }

  /** What the chip holds never decides whether a comparable is kept; a chip that fails to parse only changes its address. */
  lemma ChipNeverDrops(c: RawComp, chip: ChipField, provider: string)
    requires !Raises(c) && !Raises(c.(formattedChip := chip))
    ensures NormalizeComp(c, provider).Some? <==> NormalizeComp(c.(formattedChip := chip), provider).Some?
  {
  }

  /**
   * The chip's address by cases: the first and the second entry's values,
   * each kept when it is a non-empty string, joined by ", ".
   */
  function ChipLines(entries: seq<ChipEntry>): string
    requires |entries| > 0 && entries[0].EntryMap? && TextIfPresent(entries[0].fullValue)
    requires |entries| > 1 ==> entries[1].EntryMap? && TextIfPresent(entries[1].fullValue)
  {
    var has1 := Present(entries[0].fullValue);
    var has2 := |entries| > 1 && Present(entries[1].fullValue);
    if has1 && has2 then entries[0].fullValue.value.s + ", " + entries[1].fullValue.value.s
    else if has1 then entries[0].fullValue.value.s
    else if has2 then entries[1].fullValue.value.s
    else ""
  }

  /**
   * A chip whose first two entries are maps gives an address exactly when
   * neither holds a truthy non-string (the join raises on one), and then it
   * is the address of its lines.
   */
  lemma ChipAddressOfLines(entries: seq<ChipEntry>)
    requires |entries| > 0 && entries[0].EntryMap? && (|entries| > 1 ==> entries[1].EntryMap?)
    ensures var r := ChipAddress(ChipMap(Some(LocationList(entries))));
      && (r.Some? <==> TextIfPresent(entries[0].fullValue) && (|entries| > 1 ==> TextIfPresent(entries[1].fullValue)))
      && (r.Some? ==> r.value == ChipLines(entries))
  {
    var v0 := entries[0].fullValue;
    var line2 := if |entries| > 1 then entries[1].fullValue else Some(Text("", None));
    JoinPresentSnoc([], v0);
    assert [] + [v0] == [v0];
    JoinPresentSnoc([v0], line2);
    assert [v0] + [line2] == [v0, line2];
  }

  /**
   * When the chip's first two entries hold strings or nothing, and at least
   * one of them a non-empty string, the record's address is the chip's lines.
   */
  lemma ChipLinesAddress(c: RawComp, provider: string, entries: seq<ChipEntry>)
    requires !Raises(c) && Survives(c)
    requires c.formattedChip == ChipMap(Some(LocationList(entries)))
    requires |entries| > 0 && entries[0].EntryMap? && TextIfPresent(entries[0].fullValue)
    requires |entries| > 1 ==> entries[1].EntryMap? && TextIfPresent(entries[1].fullValue)
    requires Present(entries[0].fullValue) || (|entries| > 1 && Present(entries[1].fullValue))
    ensures NormalizeComp(c, provider).value.address == ChipLines(entries)
  {
    ChipAddressOfLines(entries);
  }

  /** A chip gives a non-empty address exactly when it has lines, and the address is then its lines. */
  lemma ChipAddressCases(chip: ChipField)
    requires !chip.ChipNotMap?
    ensures ChipHasLines(chip) ==> ChipAddress(chip) == Some(ChipLines(chip.location.value.entries))
    ensures !ChipHasLines(chip) ==> ChipAddress(chip).None? || ChipAddress(chip) == Some("")
  {
    if chip.ChipMap? && chip.location.Some? && chip.location.value.LocationList? {
      var entries := chip.location.value.entries;
      if |entries| > 0 && entries[0].EntryMap? && (|entries| > 1 ==> entries[1].EntryMap?) {
        ChipAddressOfLines(entries);
      }
    }
  }

  /** When the chip yields nothing, the address is the non-empty street, city, state and zipcode joined by ", ". */
  lemma FallbackWhenChipEmpty(c: RawComp, provider: string)
    requires !Raises(c) && Survives(c)
    requires ChipAddress(c.formattedChip) in {None, Some("")}
    requires c.address.Some? && c.address.value.AddressMap?
    ensures var a := c.address.value;
      NormalizeComp(c, provider).value.address == JoinPresent([a.streetAddress, a.city, a.state, a.zipcode]).value
  {
  }

  predicate NoneRaise(comps: seq<RawComp>)
  {
    forall i :: 0 <= i < |comps| ==> !Raises(comps[i])
  }

  /** The list the normalising loop builds, one comparable at a time. */
  function NormalizeAll(comps: seq<RawComp>, provider: string): (r: seq<CompRecord>)
    requires NoneRaise(comps)
    ensures |r| <= |comps|
    ensures forall k :: 0 <= k < |r| ==> ValidRecord(r[k], provider)
  {
    if comps == [] then []
    else
      var last := NormalizeComp(comps[|comps| - 1], provider);
      NormalizeAll(comps[..|comps| - 1], provider) + (if last.Some? then [last.value] else [])
  }

  /** Normalising a concatenation normalises each part in turn: the input order is kept. */
  lemma {:induction false} NormalizeAllAppend(a: seq<RawComp>, b: seq<RawComp>, provider: string)
    requires NoneRaise(a + b)
    ensures NoneRaise(a) && NoneRaise(b)
    ensures NormalizeAll(a + b, provider) == NormalizeAll(a, provider) + NormalizeAll(b, provider)
  {
    assert forall i :: 0 <= i < |a| ==> (a + b)[i] == a[i];
    assert forall i :: 0 <= i < |b| ==> (a + b)[|a| + i] == b[i];
    if b == [] {
      assert a + b == a;
    } else {
      var init := b[..|b| - 1];
      assert (a + b)[..|a + b| - 1] == a + init;
      assert (a + b)[|a + b| - 1] == b[|b| - 1];
      NormalizeAllAppend(a, init, provider);
    }
  }

  /**
   * The output is the subsequence of kept comparables, each normalised: the
   * k-th record comes from the k-th kept position, positions increase, and a
   * position is kept exactly when its comparable survives.
   */
  lemma {:induction false} NormalizeAllIsSubsequence(comps: seq<RawComp>, provider: string)
    requires NoneRaise(comps)
    ensures var ix := Positions(comps, Survives);
      && |ix| == |NormalizeAll(comps, provider)|
      && (forall k :: 0 <= k < |ix| ==> NormalizeComp(comps[ix[k]], provider) == Some(NormalizeAll(comps, provider)[k]))
      && Increasing(ix)
      && (forall i :: 0 <= i < |comps| ==> (Survives(comps[i]) <==> i in ix))
  {
    KeptCount(comps, provider);
    KeptRecords(comps, provider);
    PositionsIncreasing(comps, Survives);
    PositionsExactly(comps, Survives);
  }

  lemma {:induction false} KeptCount(comps: seq<RawComp>, provider: string)
    requires NoneRaise(comps)
    ensures |Positions(comps, Survives)| == |NormalizeAll(comps, provider)|
  {
    if comps != [] {
      var init := comps[..|comps| - 1];
      assert forall i :: 0 <= i < |init| ==> init[i] == comps[i];
      KeptCount(init, provider);
    }
  }

  lemma {:induction false} KeptRecords(comps: seq<RawComp>, provider: string)
    requires NoneRaise(comps)
    ensures var ix, r := Positions(comps, Survives), NormalizeAll(comps, provider);
      |ix| == |r| && forall k :: 0 <= k < |ix| ==> NormalizeComp(comps[ix[k]], provider) == Some(r[k])
  {
    KeptCount(comps, provider);
    if comps != [] {
      var init := comps[..|comps| - 1];
      assert forall i :: 0 <= i < |init| ==> init[i] == comps[i];
      KeptRecords(init, provider);
    }
  }

  /** Confidence of a comps batch by the number of records that survive: 0.0, 0.2, 0.4, then 0.9 from three on. */
  function CompsConfidence(n: nat): (c: real)
    ensures 0.0 <= c <= 1.0
    ensures c >= 0.2 <==> n >= 1
    ensures c >= 0.5 <==> n >= 3
  {
    if n >= 3 then 0.9 else if n == 2 then 0.4 else if n == 1 then 0.2 else 0.0
  }

  lemma CompsConfidenceTable()
    ensures CompsConfidence(0) == 0.0 && CompsConfidence(1) == 0.2 && CompsConfidence(2) == 0.4
    ensures forall n: nat :: n >= 3 ==> CompsConfidence(n) == 0.9
  {
  }

  /** The payload can be read without raising: its `comps` is a list (or falsy) whose comparables do not raise. */
  predicate PayloadReadable(p: Payload)
  {
    && p.comps != Some(CompsNotList(true))
    && (p.comps.Some? && p.comps.value.CompsList? ==> NoneRaise(p.comps.value.items))
  }

  /** The comparables of a payload: its "comps" list, or none when the key is missing, null or falsy. */
  function CompsOf(p: Payload): (comps: seq<RawComp>)
    requires PayloadReadable(p)
    ensures NoneRaise(comps)
    ensures p.comps.Some? && p.comps.value.CompsList? ==> comps == p.comps.value.items
    ensures !(p.comps.Some? && p.comps.value.CompsList?) ==> comps == []
  {
    if p.comps.Some? && p.comps.value.CompsList? then p.comps.value.items else []
  }

  /** The verify step runs to completion on this action and raw result. */
  predicate VerifyCanRun(action: Option<Action>, raw: Option<ToolResult>)
  {
    action.None? || raw.None? || action.value.kind != GetComps || PayloadReadable(raw.value.data)
  }

  /** The claims the verify step emits. */
  function ClaimsFor(action: Option<Action>, raw: Option<ToolResult>): (r: seq<Claim>)
    requires VerifyCanRun(action, raw)
    ensures |r| <= 1
    ensures |r| == 1 <==> action.Some? && raw.Some? && action.value.kind == GetComps
    ensures |r| == 1 ==>
      && r[0].field == "comps" && r[0].source == raw.value.provider
      && r[0].value == CompList(NormalizeAll(CompsOf(raw.value.data), raw.value.provider))
      && r[0].confidence == CompsConfidence(|r[0].value.records|)
  {
    if action.None? || raw.None? then []
    else if action.value.kind == GetComps then
      var normalized := NormalizeAll(CompsOf(raw.value.data), raw.value.provider);
      [Claim("comps", CompList(normalized), CompsConfidence(|normalized|), raw.value.provider)]
    else []
  }

  /** Every record of the comps claim is valid and carries the claim's own source. */
  lemma ClaimRecordsValid(action: Option<Action>, raw: Option<ToolResult>)
    requires VerifyCanRun(action, raw)
    ensures forall c :: c in ClaimsFor(action, raw) ==>
      c.value.CompList? && forall k :: 0 <= k < |c.value.records| ==> ValidRecord(c.value.records[k], c.source)
  {
  }

  /** The normalising loop of the verify step. */
  method NormalizeComps(comps: seq<RawComp>, provider: string) returns (normalized: seq<CompRecord>)
    requires NoneRaise(comps)
    ensures normalized == NormalizeAll(comps, provider)
  {
    normalized := [];
    for i := 0 to |comps|
      invariant normalized == NormalizeAll(comps[..i], provider)
    {
      assert comps[..i + 1][..i] == comps[..i];
      var record := NormalizeComp(comps[i], provider);
      if record.Some? {
        normalized := normalized + [record.value];
      }
    }
    assert comps[..|comps|] == comps;
  }
}

=== FILE: planning.dfy ===
/**
 * The decisions of the planner and run_tool steps, as functions of the state
 * they read.
 */
module Planning {
  import opened Wrappers
  import opened Raw
  import opened Types

  /** What the tool client's `call` returned: a map payload, or anything else. */
  datatype ClientReply = ReplyMap(data: Payload) | ReplyNotMap

  /** The planner's choice: fetch comps while none have been accepted, finalize after. */
  function PlanAction(comps: seq<CompRecord>, request: Option<RealEstateRequest>): (a: Action)
    ensures a.kind == GetComps <==> comps == []
    ensures a.kind == Finalize <==> comps != []
    ensures a.alternates == []
    ensures a.kind == Finalize || request.None? ==> a.params == map[]
    ensures a.kind == GetComps && request.Some? ==>
      && a.params.Keys == {"address", "apn", "asset_class"}
      && a.params["address"] == request.value.address
      && a.params["apn"] == request.value.apn
      && ParseAssetClass(a.params["asset_class"]) == Some(request.value.assetClass)
  {
    if comps == [] then
      var params := if request.Some? then
          map["address" := request.value.address, "apn" := request.value.apn,
              "asset_class" := AssetClassName(request.value.assetClass)]
        else map[];
      AssetClassRoundTrip(if request.Some? then request.value.assetClass else Residential);
      Action(GetComps, params, [])
    else DefaultAction(Finalize)
  }

  /**
   * The tool result run_tool stores, or None when it leaves the state alone.
   * `client` is None when no tool client is installed.
   */
  function DispatchTool(action: Option<Action>, client: Option<ClientReply>): (r: Option<ToolResult>)
    ensures r.None? <==> action.None? || action.value.kind == Finalize
    ensures r.Some? ==> (r.value.provider == "get_comps" <==> action.value.kind == GetComps)
    ensures r.Some? ==> (r.value.provider == "stub" <==> action.value.kind != GetComps)
    ensures r.Some? && action.value.kind != GetComps ==> r.value.data == EmptyPayload
    ensures r.Some? && action.value.kind == GetComps ==>
      r.value.data == (if client.Some? && client.value.ReplyMap? then client.value.data else NoCompsPayload)
  {
    if action.None? || action.value.kind == Finalize then None
    else if action.value.kind == GetComps then
      if client.None? then Some(ToolResult("get_comps", NoCompsPayload))
      else if client.value.ReplyNotMap? then Some(ToolResult("get_comps", NoCompsPayload))
      else Some(ToolResult("get_comps", client.value.data))
    else Some(ToolResult("stub", EmptyPayload))
  }
}

=== FILE: raw.dfy ===
/**
 * The comparable-sales provider's raw JSON, in the shapes the verify step reads it.
 *
 * The steps ask three things of a loose value: whether it is truthy
 * (`if v`, `a or b`), what `float(v)` makes of it, and, for a string, the
 * string itself (the address joins read it). `RawValue` keeps just those.
 * A key that is missing, or holds JSON null, is `None` in an
 * `Option<RawValue>`, since `dict.get` cannot tell them apart.
 */
module Raw {
  import opened Wrappers

  /** A loose JSON value. */
  datatype RawValue =
    | Number(v: real)                        // an int, float or bool
    | Text(s: string, asFloat: Option<real>) // a string, with what float() returns for it (None: float raises)
    | Other(truthy: bool)                    // a list or object: float() raises on it

  /** Python truthiness. */
  predicate Truthy(v: RawValue)
  {
    match v
    case Number(x) => x != 0.0
    case Text(s, _) => s != ""
    case Other(t) => t
  }

  /** `if v` on the result of `dict.get`: the key is there, not null, and truthy. */
  predicate Present(v: Option<RawValue>)
  {
    v.Some? && Truthy(v.value)
  }

  /** Python's `float(v)`; None where it raises. */
  function AsFloat(v: RawValue): Option<real>
  {
    match v
    case Number(x) => Some(x)
    case Text(_, f) => f
    case Other(_) => None
  }

  /** The value is there and `float` turns it into a positive number. */
  predicate PositiveNumber(v: Option<RawValue>)
  {
    v.Some? && AsFloat(v.value).Some? && AsFloat(v.value).value > 0.0
  }

  /** `float("")` raises, so an empty string never carries a parsed number. */
  predicate ParsesConsistently(v: Option<RawValue>)
  {
    v.Some? && v.value.Text? && v.value.s == "" ==> v.value.asFloat.None?
  }

  /** One entry of `formattedChip.location`. */
  datatype ChipEntry = EntryMap(fullValue: Option<RawValue>) | EntryNotMap

  /** The value under `formattedChip.location`, when that key is there. */
  datatype ChipLocation = LocationList(entries: seq<ChipEntry>) | LocationNotList

  /** The value under `formattedChip`: the key is absent, or holds a map, or holds anything else (null included). */
  datatype ChipField = NoChip | ChipMap(location: Option<ChipLocation>) | ChipNotMap

  /** The value under `address`, when that key is there and not null. */
  datatype AddressField =
    | AddressMap(streetAddress: Option<RawValue>, city: Option<RawValue>, state: Option<RawValue>, zipcode: Option<RawValue>)
    | AddressNotMap(truthy: bool)

  /** One comparable sale as the provider returns it (only the keys the verify step reads). */
  datatype RawComp = RawComp(
    price: Option<RawValue>,
    livingArea: Option<RawValue>,
    livingAreaValue: Option<RawValue>,
    address: Option<AddressField>,
    formattedChip: ChipField,
    bedrooms: Option<RawValue>,
    bathrooms: Option<RawValue>,
    zpid: Option<RawValue>,
    hdpUrl: Option<RawValue>)

  /** The value under the payload's `comps` key. */
  datatype CompsField = CompsList(items: seq<RawComp>) | CompsNotList(truthy: bool)

  /** A provider payload: its `comps` key and the other keys, which no step reads. */
  datatype Payload = Payload(comps: Option<CompsField>, rest: map<string, RawValue>)

  /** `{}` */
  const EmptyPayload := Payload(None, map[])

  /** The payload whose "comps" list is empty. */
  const NoCompsPayload := Payload(Some(CompsList([])), map[])
}

=== FILE: run.dfy ===
/**
 * The compiled graph run on one state: start at the planner, run each node
 * on the shared state, follow the edge the graph gives, and stop at the end
 * or when the step limit (the runtime's recursion limit) is used up.
 */
module Run {
  import opened Wrappers
  import opened Types
  import opened Planning
  import opened Normalize
  import opened ClaimMerge
  import opened ValuationModel
  import opened Graph
  import opened Nodes

  /** The state holds what run_tool and verify need when `n` is the next node. */
  predicate Ready(state: GraphState, client: Option<ClientReply>, n: Node)
    reads state
  {
    && (n == RunToolNode ==> state.raw.None?)
    && (n == VerifyNode ==> state.raw == DispatchTool(state.action, client))
  }

  /** Runs one of the nodes before the route (planner, run_tool, verify, update_state). */
  method FetchStep(state: GraphState, client: Option<ClientReply>, n: Node) returns (next: Node)
    requires n in {PlannerNode, RunToolNode, VerifyNode, UpdateStateNode} && ClientReady(client)
    requires n == PlannerNode ==> state.raw.None?
    requires Ready(state, client, n)
    modifies state`verifiedState, state`action, state`raw, state`verified, state.verifiedState
    ensures next == Next(n, state.humanGate, state.action)
    ensures state.verifiedState == null || state.verifiedState == old(state.verifiedState) || fresh(state.verifiedState)
    ensures n == PlannerNode ==> state.action.Some?
    ensures n == PlannerNode && old(CurrentFacts(state.verifiedState)).comps == [] ==> state.action.value.kind == GetComps
    ensures n != PlannerNode ==> state.action == old(state.action)
    ensures Ready(state, client, next)
    ensures CurrentFacts(state.verifiedState) ==
      if n == UpdateStateNode then Merge(old(CurrentFacts(state.verifiedState)), PendingClaims(old(state.verified)))
      else old(CurrentFacts(state.verifiedState))
    ensures n == PlannerNode ==> state.action == Some(PlanAction(old(CurrentFacts(state.verifiedState)).comps, state.request))
    ensures state.raw ==
      if n == RunToolNode then DispatchTool(state.action, client)
      else if n == UpdateStateNode then None
      else old(state.raw)
    ensures state.verified ==
      if n == VerifyNode then Some(ClaimsFor(state.action, state.raw))
      else if n == UpdateStateNode then None
      else old(state.verified)
  {
    match n {
      case PlannerNode => Planner(state);
      case RunToolNode => RunTool(state, client);
      case VerifyNode =>
        ReadyClientLetsVerifyRun(state.action, client);
        Verify(state);
      case UpdateStateNode => UpdateState(state);
    }
    next := Next(n, state.humanGate, state.action);
  }

  /** Runs one of the nodes after the route (valuate, report). */
  method FinishStep(state: GraphState, n: Node) returns (next: Node)
    requires n in {ValuateNode, ReportNode}
    modifies state`valuation, state`valuationConfident, state`valuationDrivers, state`report, state`done
    ensures next == Next(n, state.humanGate, state.action)
    ensures state.done == if n == ReportNode then Some(true) else old(state.done)
    ensures n == ReportNode ==> state.report.Some?
    ensures n == ValuateNode ==>
      var comps := CurrentFacts(state.verifiedState).comps;
      && state.valuation == Some(ValuationOf(comps))
      && state.valuationConfident == Some(Confident(comps))
      && state.valuationDrivers == Some(Drivers(comps))
    ensures n != ValuateNode ==>
      && state.valuation == old(state.valuation)
      && state.valuationConfident == old(state.valuationConfident)
      && state.valuationDrivers == old(state.valuationDrivers)
    ensures state.report ==
      if n == ReportNode then Some(ReportOf(state.request, state.valuation, state.valuationConfident, state.valuationDrivers))
      else old(state.report)
  {
    if n == ValuateNode {
      Valuate(state);
    } else {
      Report(state);
    }
    next := Next(n, state.humanGate, state.action);
  }

  /** Runs node `n` on the state and returns the node the graph goes to next. */
  method Step(state: GraphState, client: Option<ClientReply>, n: Node) returns (next: Node)
    requires n != EndNode && ClientReady(client)
    requires n == PlannerNode ==> state.raw.None?
    requires Ready(state, client, n)
    modifies state, state.verifiedState
    ensures next == Next(n, state.humanGate, state.action)
    ensures state.request == old(state.request) && state.humanGate == old(state.humanGate)
    ensures state.verifiedState == null || state.verifiedState == old(state.verifiedState) || fresh(state.verifiedState)
    ensures n == PlannerNode ==> state.action.Some?
    ensures n == PlannerNode && old(CurrentFacts(state.verifiedState)).comps == [] ==> state.action.value.kind == GetComps
    ensures n != PlannerNode ==> state.action == old(state.action)
    ensures Ready(state, client, next)
    ensures state.done == if n == ReportNode then Some(true) else old(state.done)
    ensures n == ReportNode ==> state.report.Some?
  {
    if n == ValuateNode || n == ReportNode {
      next := FinishStep(state, n);
    } else {
      next := FetchStep(state, client, n);
    }
  }

  /**
   * Runs the graph for at most `limit` node executions. `visited` lists the
   * nodes run, in order; `finished` says the run reached the end rather than
   * the step limit.
   */
  method RunGraph(state: GraphState, client: Option<ClientReply>, limit: nat) returns (visited: seq<Node>, finished: bool)
    requires state.raw.None? && state.done.None? && ClientReady(client)
    modifies state, state.verifiedState
    ensures |visited| <= limit
    ensures visited == Walk(Entry, state.humanGate, state.action, |visited|)
    ensures finished ==> Iterate(Entry, state.humanGate, state.action, |visited|) == EndNode
    ensures !finished ==> |visited| == limit
    ensures state.request == old(state.request) && state.humanGate == old(state.humanGate)
    ensures state.done == Some(true) <==> ReportNode in visited
    ensures ReportNode in visited ==> state.report.Some?
    ensures old(CurrentFacts(state.verifiedState)).comps == [] && !GateSet(state.humanGate) ==>
      !finished && ValuateNode !in visited && ReportNode !in visited
  {
    visited := [];
    var n := Entry;
    ghost var startComps := CurrentFacts(state.verifiedState).comps;
    if limit > 0 {
      n := Step(state, client, PlannerNode);
      visited := [PlannerNode];
    }
    ghost var action, gate := state.action, state.humanGate;
    ghost var valuated, reported := false, false;
    assert startComps == [] && visited != [] ==> action.Some? && action.value.kind == GetComps;
    while n != EndNode && |visited| < limit
      invariant |visited| <= limit
      invariant state.request == old(state.request) && state.humanGate == gate == old(state.humanGate)
      invariant state.verifiedState == null || state.verifiedState == old(state.verifiedState) || fresh(state.verifiedState)
      invariant state.action == action
      invariant visited == Walk(Entry, gate, action, |visited|)
      invariant n == Iterate(Entry, gate, action, |visited|)
      invariant visited == [] <==> n == PlannerNode
      invariant visited == [] ==> limit == 0
      invariant Ready(state, client, n)
      invariant valuated == (ValuateNode in visited) && reported == (ReportNode in visited)
      invariant state.done == Some(true) <==> reported
      invariant valuated ==> n == ReportNode || n == EndNode
      invariant reported ==> n == EndNode
      invariant reported ==> state.report.Some?
      decreases limit - |visited|
    {
      WalkExtends(Entry, gate, action, |visited|);
      var next := Step(state, client, n);
      EdgesAsWired(n, gate, action);
      valuated, reported := valuated || n == ValuateNode, reported || n == ReportNode;
      visited := visited + [n];
      n := next;
    }
    finished := n == EndNode;
    if startComps == [] && !GateSet(gate) && visited != [] {
      FetchRunNeverValuates(gate, action, |visited|);
    }
  }
}

=== FILE: sources.dfy ===
/**
 * The report step's source list: each non-empty driver source once, in the
 * order of its first occurrence.
 */
module Sources {
  import opened Wrappers
  import opened Types

  /** The source of a driver counts when it is a non-empty string. */
  predicate HasSource(d: CompRecord, s: string)
  {
    d.source == Some(s) && s != ""
  }

  predicate NoDuplicates(xs: seq<string>)
  {
    forall i, j :: 0 <= i < j < |xs| ==> xs[i] != xs[j]
  }

  /** The list the report's loop builds. */
  function DistinctSources(drivers: seq<CompRecord>): (r: seq<string>)
    ensures NoDuplicates(r)
    ensures forall s :: s in r <==> exists i :: 0 <= i < |drivers| && HasSource(drivers[i], s)
  {
    if drivers == [] then []
    else
      var init := drivers[..|drivers| - 1];
      var last := drivers[|drivers| - 1];
      var prev := DistinctSources(init);
      assert forall i :: 0 <= i < |init| ==> init[i] == drivers[i];
      if last.source.Some? && last.source.value != "" && last.source.value !in prev then prev + [last.source.value]
      else prev
  }

  /** Every occurrence of a later source of `r` is preceded by an occurrence of each earlier one. */
  predicate InFirstOccurrenceOrder(drivers: seq<CompRecord>, r: seq<string>)
  {
    forall i, j, k :: 0 <= i < j < |r| && 0 <= k < |drivers| && HasSource(drivers[k], r[j]) ==>
      exists l :: 0 <= l < k && HasSource(drivers[l], r[i])
  }

  /** The sources come in the order of their first occurrence among the drivers. */
  lemma {:induction false} DistinctSourcesInFirstOccurrenceOrder(drivers: seq<CompRecord>)
    ensures InFirstOccurrenceOrder(drivers, DistinctSources(drivers))
  {
    if drivers != [] {
      var init := drivers[..|drivers| - 1];
      DistinctSourcesInFirstOccurrenceOrder(init);
      var r, prev := DistinctSources(drivers), DistinctSources(init);
      assert forall i :: 0 <= i < |init| ==> init[i] == drivers[i];
      forall i, j, k | 0 <= i < j < |r| && 0 <= k < |drivers| && HasSource(drivers[k], r[j])
        ensures exists l :: 0 <= l < k && HasSource(drivers[l], r[i])
      {
        assert i < |prev| && r[i] == prev[i] && r[i] in prev;
        if k == |drivers| - 1 {
          var l :| 0 <= l < |init| && HasSource(init[l], r[i]);
          assert HasSource(drivers[l], r[i]);
        } else {
          assert HasSource(init[k], r[j]);
          assert r[j] in prev;
          assert j < |prev|;
          assert r[j] == prev[j];
          assert 0 <= i < j < |prev| && 0 <= k < |init| && HasSource(init[k], prev[j]);
          assert exists l :: 0 <= l < k && HasSource(init[l], prev[i]);
          var l :| 0 <= l < k && HasSource(init[l], prev[i]);
          assert HasSource(drivers[l], r[i]);
        }
      }
    }
  }

  /** The report's loop over the drivers. */
  method CollectSources(drivers: seq<CompRecord>) returns (sources: seq<string>)
    ensures sources == DistinctSources(drivers)
  {
    sources := [];
    for i := 0 to |drivers|
      invariant sources == DistinctSources(drivers[..i])
    {
      assert drivers[..i + 1][..i] == drivers[..i];
      var src := drivers[i].source;
      if src.Some? && src.value != "" && src.value !in sources {
        sources := sources + [src.value];
      }
    }
    assert drivers[..|drivers|] == drivers;
  }
}

=== FILE: stats.dfy ===
/**
 * The median of a non-empty list of numbers, as `statistics.median` computes
 * it: sort, then take the middle value, or the mean of the two middle values
 * when the count is even.
 */
module Stats {

  predicate SortedReals(s: seq<real>)
  {
    forall i, j :: 0 <= i < j < |s| ==> s[i] <= s[j]
  }

  /** Puts `x` in front of the first entry not smaller than it. */
  function InsertReal(x: real, s: seq<real>): (r: seq<real>)
    ensures |r| == |s| + 1
  {
    if s == [] || x <= s[0] then [x] + s else [s[0]] + InsertReal(x, s[1..])
  }

  /** Inserting into a sorted list keeps it sorted; the head is `x` or the old head. */
  lemma {:induction false} InsertRealSorted(x: real, s: seq<real>)
    requires SortedReals(s)
    ensures SortedReals(InsertReal(x, s))
    ensures var r := InsertReal(x, s); r[0] == x || (s != [] && r[0] == s[0])
  {
    if !(s == [] || x <= s[0]) {
      assert SortedReals(s[1..]);
      InsertRealSorted(x, s[1..]);
      assert s[0] <= InsertReal(x, s[1..])[0];
    }
  }

  /** Inserting adds exactly `x` to the entries. */
  lemma {:induction false} InsertRealPermutes(x: real, s: seq<real>)
    ensures multiset(InsertReal(x, s)) == multiset(s) + multiset{x}
  {
    if !(s == [] || x <= s[0]) {
      InsertRealPermutes(x, s[1..]);
      assert s == [s[0]] + s[1..];
    }
  }

  /** The values in ascending order, by insertion sort. */
  function SortReals(xs: seq<real>): (r: seq<real>)
    ensures SortedReals(r)
    ensures multiset(r) == multiset(xs)
    ensures |r| == |xs|
  {
    if xs == [] then []
    else
      var rest := SortReals(xs[1..]);
      InsertRealSorted(xs[0], rest);
      InsertRealPermutes(xs[0], rest);
      assert xs == [xs[0]] + xs[1..];
      InsertReal(xs[0], rest)
  }

  /** Two sorted lists with the same entries start with the same, smallest, entry. */
  lemma SortedSameFirst(a: seq<real>, b: seq<real>)
    requires SortedReals(a) && SortedReals(b) && multiset(a) == multiset(b) && a != []
    ensures b != [] && a[0] == b[0]
  {
    assert a[0] in multiset(b) && b != [];
    assert b[0] in multiset(a);
    var i :| 0 <= i < |b| && b[i] == a[0];
    var j :| 0 <= j < |a| && a[j] == b[0];
    assert b[0] <= b[i] && a[0] <= a[j];
  }

  lemma SortedRealsTail(a: seq<real>)
    requires SortedReals(a) && a != []
    ensures SortedReals(a[1..]) && multiset(a[1..]) == multiset(a) - multiset{a[0]}
  {
    assert a == [a[0]] + a[1..];
  }

  /** Two sorted lists with the same entries are equal. */
  lemma {:induction false} SortedRealsUnique(a: seq<real>, b: seq<real>)
    requires SortedReals(a) && SortedReals(b) && multiset(a) == multiset(b)
    ensures a == b
  {
    if a == [] {
      assert |b| == |multiset(b)| == 0;
    } else {
      SortedSameFirst(a, b);
      SortedRealsTail(a);
      SortedRealsTail(b);
      SortedRealsUnique(a[1..], b[1..]);
      assert a == [a[0]] + a[1..] && b == [b[0]] + b[1..];
    }
  }

  /** The middle entry of a list, or the mean of the two middle entries when the count is even. */
  function Middle(s: seq<real>): real
    requires |s| > 0
  {
    var n := |s|;
    if n % 2 == 1 then s[n / 2] else (s[n / 2 - 1] + s[n / 2]) / 2.0
  }

  /** `statistics.median(xs)` */
  function Median(xs: seq<real>): real
    requires |xs| > 0
  {
    Middle(SortReals(xs))
  }

  /** The median is the middle of the values however they are sorted. */
  lemma MedianIsMiddle(xs: seq<real>, s: seq<real>)
    requires |xs| > 0 && SortedReals(s) && multiset(s) == multiset(xs)
    ensures |s| == |xs| && Median(xs) == Middle(s)
  {
    assert |s| == |multiset(s)| == |multiset(xs)| == |xs|;
    SortedRealsUnique(s, SortReals(xs));
  }

  /** How many entries are at most `m`. */
  function CountAtMost(xs: seq<real>, m: real): nat
  {
    if xs == [] then 0 else (if xs[0] <= m then 1 else 0) + CountAtMost(xs[1..], m)
  }

  /** How many entries are at least `m`. */
  function CountAtLeast(xs: seq<real>, m: real): nat
  {
    if xs == [] then 0 else (if xs[0] >= m then 1 else 0) + CountAtLeast(xs[1..], m)
  }

  lemma {:induction false} CountAppend(a: seq<real>, b: seq<real>, m: real)
    ensures CountAtMost(a + b, m) == CountAtMost(a, m) + CountAtMost(b, m)
    ensures CountAtLeast(a + b, m) == CountAtLeast(a, m) + CountAtLeast(b, m)
  {
    if a == [] {
      assert a + b == b;
    } else {
      assert (a + b)[1..] == a[1..] + b;
      CountAppend(a[1..], b, m);
    }
  }

  /** Taking out the entry at `j` removes it from the multiset and from whichever counts it was in. */
  lemma RemoveAt(b: seq<real>, j: nat, m: real)
    requires j < |b|
    ensures multiset(b[..j] + b[j + 1..]) == multiset(b) - multiset{b[j]}
    ensures CountAtMost(b, m) == CountAtMost(b[..j] + b[j + 1..], m) + (if b[j] <= m then 1 else 0)
    ensures CountAtLeast(b, m) == CountAtLeast(b[..j] + b[j + 1..], m) + (if b[j] >= m then 1 else 0)
  {
    assert b == b[..j] + [b[j]] + b[j + 1..];
    assert multiset(b) == multiset(b[..j]) + multiset{b[j]} + multiset(b[j + 1..]);
    CountAppend(b[..j] + [b[j]], b[j + 1..], m);
    CountAppend(b[..j], [b[j]], m);
    CountAppend(b[..j], b[j + 1..], m);
  }

  /** Counts depend only on the multiset of entries. */
  lemma {:induction false} CountPermutation(a: seq<real>, b: seq<real>, m: real)
    requires multiset(a) == multiset(b)
    ensures CountAtMost(a, m) == CountAtMost(b, m)
    ensures CountAtLeast(a, m) == CountAtLeast(b, m)
  {
    if a == [] {
      assert |b| == |multiset(b)| == 0;
    } else {
      var x := a[0];
      assert a == [x] + a[1..];
      assert x in multiset(b);
      var j :| 0 <= j < |b| && b[j] == x;
      RemoveAt(b, j, m);
      assert multiset(a[1..]) == multiset(a) - multiset{x};
      CountPermutation(a[1..], b[..j] + b[j + 1..], m);
    }
  }

  /** In a list whose entries are all at most (at least) `m`, every entry counts. */
  lemma {:induction false} CountAll(xs: seq<real>, m: real)
    ensures (forall k :: 0 <= k < |xs| ==> xs[k] <= m) ==> CountAtMost(xs, m) == |xs|
    ensures (forall k :: 0 <= k < |xs| ==> xs[k] >= m) ==> CountAtLeast(xs, m) == |xs|
  {
    if xs != [] {
      CountAll(xs[1..], m);
    }
  }

  /** In a sorted list, the first `lo` entries are at most `s[lo - 1]`. */
  lemma SortedCountAtMost(s: seq<real>, lo: nat, m: real)
    requires SortedReals(s) && 0 < lo <= |s| && s[lo - 1] <= m
    ensures CountAtMost(s, m) >= lo
  {
    assert s == s[..lo] + s[lo..];
    CountAppend(s[..lo], s[lo..], m);
    CountAll(s[..lo], m);
  }

  /** In a sorted list, the entries from `hi` on are at least `s[hi]`. */
  lemma SortedCountAtLeast(s: seq<real>, hi: nat, m: real)
    requires SortedReals(s) && hi < |s| && s[hi] >= m
    ensures CountAtLeast(s, m) >= |s| - hi
  {
    assert s == s[..hi] + s[hi..];
    CountAppend(s[..hi], s[hi..], m);
    CountAll(s[hi..], m);
  }

  /** The median splits the list: at least half of the entries lie at or below it, and at least half at or above it. */
  lemma MedianSplitsHalf(xs: seq<real>)
    requires |xs| > 0
    ensures 2 * CountAtMost(xs, Median(xs)) >= |xs|
    ensures 2 * CountAtLeast(xs, Median(xs)) >= |xs|
  {
    var s := SortReals(xs);
    var n := |s|;
    var m := Median(xs);
    CountPermutation(xs, s, m);
    if n % 2 == 1 {
      SortedCountAtMost(s, n / 2 + 1, m);
      SortedCountAtLeast(s, n / 2, m);
    } else {
      SortedCountAtMost(s, n / 2, m);
      SortedCountAtLeast(s, n / 2, m);
    }
  }

  /** The median lies between the smallest and the largest entry. */
  lemma MedianWithinRange(xs: seq<real>)
    requires |xs| > 0
    ensures exists i :: 0 <= i < |xs| && xs[i] <= Median(xs)
    ensures exists j :: 0 <= j < |xs| && xs[j] >= Median(xs)
  {
    var s := SortReals(xs);
    var n := |s|;
    assert s[0] <= Median(xs) <= s[n - 1];
    assert s[0] in multiset(xs) && s[n - 1] in multiset(xs);
  }
}

=== FILE: types.dfy ===
/**
 * The records the pipeline passes between its steps: the request, actions,
 * claims, tool results, the verified state and the shared graph state.
 */
module Types {
  import opened Wrappers
  import opened Raw

  /** The asset classes a request may name. */
  datatype AssetClass = Residential | Commercial | Industrial

  function AssetClassName(a: AssetClass): string
  {
    match a
    case Residential => "residential"
    case Commercial => "commercial"
    case Industrial => "industrial"
  }

  /** The validation of the `asset_class` literal: exactly three strings are accepted. */
  function ParseAssetClass(s: string): (r: Option<AssetClass>)
    ensures r.Some? <==> s in {"residential", "commercial", "industrial"}
    ensures r.Some? ==> AssetClassName(r.value) == s
  {
    if s == "residential" then Some(Residential)
    else if s == "commercial" then Some(Commercial)
    else if s == "industrial" then Some(Industrial)
    else None
  }

  lemma AssetClassRoundTrip(a: AssetClass)
    ensures ParseAssetClass(AssetClassName(a)) == Some(a)
  {
  }

  /** The subject of a valuation run. */
  datatype RealEstateRequest = RealEstateRequest(address: string, assetClass: AssetClass, apn: string)

  /** The kinds of action the planner may choose. */
  datatype ActionKind = GetParcel | GetZoning | GetComps | Finalize

  function ActionKindName(k: ActionKind): string
  {
    match k
    case GetParcel => "GET_PARCEL"
    case GetZoning => "GET_ZONING"
    case GetComps => "GET_COMPS"
    case Finalize => "FINALIZE"
  }

  /** The validation of the `kind` literal: exactly four strings are accepted. */
  function ParseActionKind(s: string): (r: Option<ActionKind>)
    ensures r.Some? <==> s in {"GET_PARCEL", "GET_ZONING", "GET_COMPS", "FINALIZE"}
    ensures r.Some? ==> ActionKindName(r.value) == s
  {
    if s == "GET_PARCEL" then Some(GetParcel)
    else if s == "GET_ZONING" then Some(GetZoning)
    else if s == "GET_COMPS" then Some(GetComps)
    else if s == "FINALIZE" then Some(Finalize)
    else None
  }

  lemma ActionKindRoundTrip(k: ActionKind)
    ensures ParseActionKind(ActionKindName(k)) == Some(k)
  {
  }

  /** An action; `params` and `alternates` hold the lookup arguments (strings, the only ones the planner writes). */
  datatype Action = Action(kind: ActionKind, params: map<string, string>, alternates: seq<map<string, string>>)

  /** `Action(kind=k)`: the other fields take their empty defaults. */
  function DefaultAction(kind: ActionKind): (a: Action)
    ensures a.kind == kind && a.params == map[] && a.alternates == []
  {
    Action(kind, map[], [])
  }

  /** A normalised comparable-sale record, and the shape of every entry of the verified comps. */
  datatype CompRecord = CompRecord(
    address: string,
    price: Option<real>,
    livingArea: Option<real>,
    bedrooms: Option<RawValue>,
    bathrooms: Option<RawValue>,
    zpid: Option<RawValue>,
    url: Option<RawValue>,
    pricePerSqft: Option<real>,
    source: Option<string>)

  /** The value a claim carries: a list of records, a map, or anything else. */
  datatype ClaimValue =
    | CompList(records: seq<CompRecord>)
    | Record(fields: map<string, RawValue>)
    | Scalar(scalar: RawValue)

  /** One scored assertion; `confidence` has no bound of its own. */
  datatype Claim = Claim(field: string, value: ClaimValue, confidence: real, source: string)

  /** A provider name paired with its raw payload. */
  datatype ToolResult = ToolResult(provider: string, data: Payload)

  /** The contents of a verified state, as a value. */
  datatype VerifiedFacts = VerifiedFacts(parcel: map<string, RawValue>, zoning: map<string, RawValue>, comps: seq<CompRecord>)

  const EmptyFacts := VerifiedFacts(map[], map[], [])

  /** The accumulated trusted facts; the merge step reassigns its fields in place. */
  class VerifiedState {
    var parcel: map<string, RawValue>
    var zoning: map<string, RawValue>
    var comps: seq<CompRecord>

    /** `VerifiedState()`: every field takes its empty default. */
    constructor ()
      ensures Facts() == EmptyFacts
    {
      parcel, zoning, comps := map[], map[], [];
    }

    function Facts(): VerifiedFacts
      reads this
    {
      VerifiedFacts(parcel, zoning, comps)
    }
  }

  /** The valuation record the valuate step writes. */
  datatype Valuation = Valuation(estimate: Option<real>, numComps: nat, methodName: string)

  /** The subject block of the report. */
  datatype Subject = Subject(address: Option<string>, apn: Option<string>, assetClass: Option<string>)

  /** The report the report step writes. `valuation` is None where the state held none (the source writes `{}`). */
  datatype ValuationReport = ValuationReport(subject: Subject, valuation: Option<Valuation>, confidence: bool, topDrivers: seq<CompRecord>, sources: seq<string>)

  /**
   * The shared state every node reads and updates. Every key is optional:
   * None (null for `verifiedState`) is an absent key.
   */
  class GraphState {
    var request: Option<RealEstateRequest>
    var verifiedState: VerifiedState?
    var action: Option<Action>
    var raw: Option<ToolResult>
    var verified: Option<seq<Claim>>
    var humanGate: Option<map<string, RawValue>>
    var valuation: Option<Valuation>
    var valuationConfident: Option<bool>
    var valuationDrivers: Option<seq<CompRecord>>
    var report: Option<ValuationReport>
    var done: Option<bool>

    /** A run's initial state: only the request key is set. */
    constructor (request: Option<RealEstateRequest>)
      ensures this.request == request && verifiedState == null
      ensures action.None? && raw.None? && verified.None? && humanGate.None?
      ensures valuation.None? && valuationConfident.None? && valuationDrivers.None?
      ensures report.None? && done.None?
    {
      this.request := request;
      verifiedState := null;
      action, raw, verified, humanGate := None, None, None, None;
      valuation, valuationConfident, valuationDrivers := None, None, None;
      report, done := None, None;
    }
  }
}

=== FILE: valuation.dfy ===
/**
 * The valuate step's computations: the median-price estimate, the confidence
 * flag, and the "drivers", the comparables closest to the median living area
 * by a stable sort.
 */
module ValuationModel {
  import opened Wrappers
  import opened Types
  import opened Stats
  import opened Filter

  predicate HasPrice(c: CompRecord)
  {
    c.price.Some?
  }

  predicate HasArea(c: CompRecord)
  {
    c.livingArea.Some?
  }

  /** The numeric prices of the comparables, in order. */
  function Prices(comps: seq<CompRecord>): (ps: seq<real>)
    ensures |ps| <= |comps|
    ensures ps == [] <==> forall i :: 0 <= i < |comps| ==> comps[i].price.None?
  {
    if comps == [] then []
    else
      var init := comps[..|comps| - 1];
      var last := comps[|comps| - 1];
      assert forall i :: 0 <= i < |init| ==> init[i] == comps[i];
      Prices(init) + (if last.price.Some? then [last.price.value] else [])
  }

  /** The k-th price is the price of the k-th comparable that has one. */
  lemma PricesInOrder(comps: seq<CompRecord>)
    ensures var ix, ps := Positions(comps, HasPrice), Prices(comps);
      && |ps| == |ix|
      && (forall k :: 0 <= k < |ix| ==> comps[ix[k]].price == Some(ps[k]))
      && Increasing(ix)
      && (forall i :: 0 <= i < |comps| ==> (comps[i].price.Some? <==> i in ix))
  {
    PricesAt(comps);
    PositionsIncreasing(comps, HasPrice);
    PositionsExactly(comps, HasPrice);
  }

  lemma {:induction false} PricesAt(comps: seq<CompRecord>)
    ensures var ix, ps := Positions(comps, HasPrice), Prices(comps);
      |ps| == |ix| && forall k :: 0 <= k < |ix| ==> comps[ix[k]].price == Some(ps[k])
  {
    if comps != [] {
      var init, last := comps[..|comps| - 1], comps[|comps| - 1];
      PricesAt(init);
      PositionsOfInit(comps, HasPrice);
      var ix0, ps0 := Positions(init, HasPrice), Prices(init);
      assert Prices(comps) == ps0 + (if last.price.Some? then [last.price.value] else []);
      assert forall k :: 0 <= k < |ix0| ==> comps[ix0[k]] == init[ix0[k]];
    }
  }

  /** The numeric living areas of the comparables, in order. */
  function LivingAreas(comps: seq<CompRecord>): (las: seq<real>)
    ensures |las| <= |comps|
    ensures las == [] <==> forall i :: 0 <= i < |comps| ==> comps[i].livingArea.None?
  {
    if comps == [] then []
    else
      var init := comps[..|comps| - 1];
      var last := comps[|comps| - 1];
      assert forall i :: 0 <= i < |init| ==> init[i] == comps[i];
      LivingAreas(init) + (if last.livingArea.Some? then [last.livingArea.value] else [])
  }

  /** The k-th area is the living area of the k-th comparable that has one. */
  lemma LivingAreasInOrder(comps: seq<CompRecord>)
    ensures var ix, las := Positions(comps, HasArea), LivingAreas(comps);
      && |las| == |ix|
      && (forall k :: 0 <= k < |ix| ==> comps[ix[k]].livingArea == Some(las[k]))
      && Increasing(ix)
      && (forall i :: 0 <= i < |comps| ==> (comps[i].livingArea.Some? <==> i in ix))
  {
    LivingAreasAt(comps);
    PositionsIncreasing(comps, HasArea);
    PositionsExactly(comps, HasArea);
  }

  lemma {:induction false} LivingAreasAt(comps: seq<CompRecord>)
    ensures var ix, las := Positions(comps, HasArea), LivingAreas(comps);
      |las| == |ix| && forall k :: 0 <= k < |ix| ==> comps[ix[k]].livingArea == Some(las[k])
  {
    if comps != [] {
      var init, last := comps[..|comps| - 1], comps[|comps| - 1];
      LivingAreasAt(init);
      PositionsOfInit(comps, HasArea);
      var ix0, las0 := Positions(init, HasArea), LivingAreas(init);
      assert LivingAreas(comps) == las0 + (if last.livingArea.Some? then [last.livingArea.value] else []);
      assert forall k :: 0 <= k < |ix0| ==> comps[ix0[k]] == init[ix0[k]];
    }
  }

  /** The estimate: None when there are no prices, else the median price, which splits them in half both ways. */
  function Estimate(comps: seq<CompRecord>): (e: Option<real>)
    ensures e.None? <==> forall i :: 0 <= i < |comps| ==> comps[i].price.None?
    ensures e.Some? ==> 2 * CountAtMost(Prices(comps), e.value) >= |Prices(comps)|
    ensures e.Some? ==> 2 * CountAtLeast(Prices(comps), e.value) >= |Prices(comps)|
  {
    var prices := Prices(comps);
    if |prices| > 0 then
      MedianSplitsHalf(prices);
      Some(Median(prices))
    else None
  }

  /** The estimate is the middle of the prices once sorted: the mean of the two middle ones for an even count. */
  lemma EstimateIsMiddle(comps: seq<CompRecord>, s: seq<real>)
    requires SortedReals(s) && multiset(s) == multiset(Prices(comps))
    ensures s == [] <==> Estimate(comps).None?
    ensures s != [] ==> Estimate(comps) == Some(Middle(s))
  {
    assert |s| == |multiset(s)| == |multiset(Prices(comps))| == |Prices(comps)|;
    if s != [] {
      MedianIsMiddle(Prices(comps), s);
    }
  }

  /** The confidence flag: at least three numeric prices. */
  function Confident(comps: seq<CompRecord>): (b: bool)
    ensures b <==> |Prices(comps)| >= 3
    ensures b ==> Estimate(comps).Some?
  {
    |Prices(comps)| >= 3
  }

  /** The valuation record. */
  function ValuationOf(comps: seq<CompRecord>): (v: Valuation)
    ensures v.estimate == Estimate(comps) && v.numComps == |comps| && v.methodName == "median_price"
  {
    Valuation(Estimate(comps), |comps|, "median_price")
  }

  function Abs(x: real): real
  {
    if x < 0.0 then -x else x
  }

  /** The sort key: how far the living area is from the target, where a missing or zero area counts as the target itself (distance 0). */
  function Distance(c: CompRecord, target: real): (d: real)
    ensures d >= 0.0
    ensures c.livingArea.None? || c.livingArea == Some(0.0) ==> d == 0.0
    ensures c.livingArea.Some? && c.livingArea.value != 0.0 ==> d == Abs(c.livingArea.value - target)
  {
    match c.livingArea
    case None => 0.0
    case Some(area) => if area == 0.0 then 0.0 else Abs(area - target)
  }

  predicate SortedByDistance(s: seq<CompRecord>, target: real)
  {
    forall i, j :: 0 <= i < j < |s| ==> Distance(s[i], target) <= Distance(s[j], target)
  }

  /** Puts `c` in front of the first entry that is not strictly closer than it. */
  function InsertByDistance(c: CompRecord, s: seq<CompRecord>, target: real): (r: seq<CompRecord>)
    ensures |r| == |s| + 1
  {
    if s == [] || Distance(c, target) <= Distance(s[0], target) then [c] + s
    else [s[0]] + InsertByDistance(c, s[1..], target)
  }

  /** Inserting into a sorted list keeps it sorted; the head is `c` or the old head. */
  lemma {:induction false} InsertByDistanceSorted(c: CompRecord, s: seq<CompRecord>, target: real)
    requires SortedByDistance(s, target)
    ensures SortedByDistance(InsertByDistance(c, s, target), target)
    ensures var r := InsertByDistance(c, s, target); r[0] == c || (s != [] && r[0] == s[0])
  {
    if !(s == [] || Distance(c, target) <= Distance(s[0], target)) {
      SortedTail(s, target);
      InsertByDistanceSorted(c, s[1..], target);
      var rest := InsertByDistance(c, s[1..], target);
      assert Distance(s[0], target) <= Distance(rest[0], target);
    }
  }

  /** Inserting adds exactly `c` to the entries. */
  lemma {:induction false} InsertByDistancePermutes(c: CompRecord, s: seq<CompRecord>, target: real)
    ensures multiset(InsertByDistance(c, s, target)) == multiset(s) + multiset{c}
  {
    if !(s == [] || Distance(c, target) <= Distance(s[0], target)) {
      InsertByDistancePermutes(c, s[1..], target);
      assert s == [s[0]] + s[1..];
    }
  }

  lemma HeadTailMultiset(s: seq<CompRecord>)
    requires s != []
    ensures multiset(s) == multiset(s[1..]) + multiset{s[0]}
  {
    assert s == [s[0]] + s[1..];
  }

  /** The comparables ordered by distance, stably, by insertion sort. */
  function SortByDistance(comps: seq<CompRecord>, target: real): (r: seq<CompRecord>)
    ensures SortedByDistance(r, target)
    ensures multiset(r) == multiset(comps)
    ensures |r| == |comps|
  {
    if comps == [] then []
    else
      var rest := SortByDistance(comps[1..], target);
      InsertByDistanceSorted(comps[0], rest, target);
      InsertByDistancePermutes(comps[0], rest, target);
      HeadTailMultiset(comps);
      InsertByDistance(comps[0], rest, target)
  }

  /** The entries at distance exactly `d`, in order. */
  function AtDistance(s: seq<CompRecord>, target: real, d: real): seq<CompRecord>
  {
    if s == [] then [] else (if Distance(s[0], target) == d then [s[0]] else []) + AtDistance(s[1..], target, d)
  }

  lemma {:induction false} InsertByDistanceStable(c: CompRecord, s: seq<CompRecord>, target: real, d: real)
    ensures AtDistance(InsertByDistance(c, s, target), target, d)
         == (if Distance(c, target) == d then [c] else []) + AtDistance(s, target, d)
  {
    if s != [] && Distance(c, target) > Distance(s[0], target) {
      InsertByDistanceStable(c, s[1..], target, d);
      assert ([s[0]] + InsertByDistance(c, s[1..], target))[1..] == InsertByDistance(c, s[1..], target);
    }
  }

  /** The sort is stable: the entries at any one distance keep their input order. */
  lemma {:induction false} SortByDistanceStable(comps: seq<CompRecord>, target: real, d: real)
    ensures AtDistance(SortByDistance(comps, target), target, d) == AtDistance(comps, target, d)
  {
    if comps != [] {
      SortByDistanceStable(comps[1..], target, d);
      InsertByDistanceStable(comps[0], SortByDistance(comps[1..], target), target, d);
    }
  }

  /** Two sorted permutations that agree at every distance start with the same entry. */
  lemma SameHead(p: seq<CompRecord>, q: seq<CompRecord>, target: real)
    requires p != [] && multiset(p) == multiset(q)
    requires SortedByDistance(p, target) && SortedByDistance(q, target)
    requires AtDistance(p, target, Distance(p[0], target)) == AtDistance(q, target, Distance(p[0], target))
    ensures q != [] && p[0] == q[0]
  {
    assert p[0] in multiset(q) && |q| == |multiset(q)| > 0;
    assert q[0] in multiset(p);
    var i :| 0 <= i < |q| && q[i] == p[0];
    var j :| 0 <= j < |p| && p[j] == q[0];
    var d := Distance(p[0], target);
    assert Distance(q[0], target) <= Distance(q[i], target);
    assert Distance(p[0], target) <= Distance(p[j], target);
    assert AtDistance(p, target, d)[0] == p[0];
    assert AtDistance(q, target, d)[0] == q[0];
  }

  /** Removing the same first entry keeps two lists in agreement at every distance. */
  lemma SameTailAtDistance(p: seq<CompRecord>, q: seq<CompRecord>, target: real)
    requires p != [] && q != [] && p[0] == q[0]
    requires forall d :: AtDistance(p, target, d) == AtDistance(q, target, d)
    ensures forall d :: AtDistance(p[1..], target, d) == AtDistance(q[1..], target, d)
  {
    forall e
      ensures AtDistance(p[1..], target, e) == AtDistance(q[1..], target, e)
    {
      var head := if Distance(p[0], target) == e then [p[0]] else [];
      var x, y := AtDistance(p[1..], target, e), AtDistance(q[1..], target, e);
      assert AtDistance(p, target, e) == head + x;
      assert AtDistance(q, target, e) == head + y;
      assert (head + x)[|head|..] == x && (head + y)[|head|..] == y;
    }
  }

  /** Removing the same first entry from two permutations leaves two permutations. */
  lemma SameTailMultiset(p: seq<CompRecord>, q: seq<CompRecord>)
    requires p != [] && q != [] && p[0] == q[0] && multiset(p) == multiset(q)
    ensures multiset(p[1..]) == multiset(q[1..])
  {
    HeadTailMultiset(p);
    HeadTailMultiset(q);
    assert multiset(p[1..]) == multiset(p) - multiset{p[0]};
    assert multiset(q[1..]) == multiset(q) - multiset{p[0]};
  }

  lemma SortedTail(p: seq<CompRecord>, target: real)
    requires p != [] && SortedByDistance(p, target)
    ensures SortedByDistance(p[1..], target)
  {
    assert forall i :: 0 <= i < |p| - 1 ==> p[1..][i] == p[i + 1];
  }

  /**
   * A stable sort by distance has one possible outcome: two permutations of
   * the same list, both sorted by distance and both keeping the input order
   * at every distance, are equal. So the insertion sort is Python's `sorted`.
   */
  lemma {:induction false} StableSortUnique(p: seq<CompRecord>, q: seq<CompRecord>, target: real)
    requires multiset(p) == multiset(q)
    requires SortedByDistance(p, target) && SortedByDistance(q, target)
    requires forall d :: AtDistance(p, target, d) == AtDistance(q, target, d)
    ensures p == q
  {
    if p == [] {
      assert |q| == |multiset(q)| == 0;
    } else {
      SameHead(p, q, target);
      SameTailMultiset(p, q);
      SameTailAtDistance(p, q, target);
      SortedTail(p, target);
      SortedTail(q, target);
      StableSortUnique(p[1..], q[1..], target);
      assert p == [p[0]] + p[1..] && q == [q[0]] + q[1..];
    }
  }

  /** Any sorted, stable rearrangement of the comparables is exactly the insertion sort's result. */
  lemma SortByDistanceIsTheStableSort(comps: seq<CompRecord>, p: seq<CompRecord>, target: real)
    requires multiset(p) == multiset(comps) && SortedByDistance(p, target)
    requires forall d :: AtDistance(p, target, d) == AtDistance(comps, target, d)
    ensures p == SortByDistance(comps, target)
  {
    forall d
      ensures AtDistance(SortByDistance(comps, target), target, d) == AtDistance(comps, target, d)
    {
      SortByDistanceStable(comps, target, d);
    }
    StableSortUnique(p, SortByDistance(comps, target), target);
  }

  function Min(a: nat, b: nat): nat
  {
    if a < b then a else b
  }

  lemma PrefixMultiset(s: seq<CompRecord>, k: nat)
    requires k <= |s|
    ensures multiset(s[..k]) <= multiset(s)
  {
    assert s == s[..k] + s[k..];
  }

  /** The drivers: the first five of the stable sort around the median living area, or the first five comparables when none has an area. */
  function Drivers(comps: seq<CompRecord>): (r: seq<CompRecord>)
    ensures |r| == Min(5, |comps|)
    ensures multiset(r) <= multiset(comps)
  {
    var areas := LivingAreas(comps);
    if |areas| > 0 then
      var sorted := SortByDistance(comps, Median(areas));
      PrefixMultiset(sorted, Min(5, |comps|));
      sorted[..Min(5, |comps|)]
    else
      PrefixMultiset(comps, Min(5, |comps|));
      comps[..Min(5, |comps|)]
  }

  /** Without any living area, the drivers are the first five comparables in their own order. */
  lemma DriversWithoutAreas(comps: seq<CompRecord>)
    requires LivingAreas(comps) == []
    ensures Drivers(comps) == comps[..Min(5, |comps|)]
  {
  }

  /** With living areas, the drivers are a prefix of the stable sort by distance from the median area. */
  lemma DriversArePrefix(comps: seq<CompRecord>)
    requires LivingAreas(comps) != []
    ensures var sorted := SortByDistance(comps, Median(LivingAreas(comps)));
      Drivers(comps) == sorted[..|Drivers(comps)|]
  {
  }

  /** Drivers come in order of distance from the median living area. */
  lemma DriversInDistanceOrder(comps: seq<CompRecord>)
    requires LivingAreas(comps) != []
    ensures SortedByDistance(Drivers(comps), Median(LivingAreas(comps)))
  {
  }

  /** In a prefix of a sorted list, nothing outside the prefix is strictly closer than something inside it. */
  lemma PrefixIsClosest(sorted: seq<CompRecord>, k: nat, c: CompRecord, d: CompRecord, target: real)
    requires SortedByDistance(sorted, target) && k <= |sorted|
    requires c in sorted && d in sorted[..k]
    requires Distance(c, target) < Distance(d, target)
    ensures c in sorted[..k]
  {
    var i :| 0 <= i < k && sorted[i] == d;
    var j :| 0 <= j < |sorted| && sorted[j] == c;
    assert j < k;
    assert sorted[..k][j] == c;
  }

  /** No comparable left out is strictly closer to the median living area than a driver. */
  lemma DriversAreClosest(comps: seq<CompRecord>, c: CompRecord, d: CompRecord)
    requires LivingAreas(comps) != []
    requires c in comps && d in Drivers(comps)
    requires Distance(c, Median(LivingAreas(comps))) < Distance(d, Median(LivingAreas(comps)))
    ensures c in Drivers(comps)
  {
    var t := Median(LivingAreas(comps));
    var sorted := SortByDistance(comps, t);
    assert c in multiset(sorted);
    PrefixIsClosest(sorted, Min(5, |comps|), c, d, t);
  }
}

=== FILE: wrappers.dfy ===
/** The optional-value wrapper used for Python's `None` and for dictionary keys that may be absent. */
module Wrappers {

  datatype Option<+T> = None | Some(value: T)

}
